=== FILE: README.md ===
# ANTIPOST2 admin core in Dafny

This project models the access-control and decision logic of the ANTIPOST2 art-portfolio backend and its admin and gallery scripts.

**Server side (index.js):**
- The in-memory session registry: token ↦ last-activity time, with a 30-minute rolling idle timeout.
- The cookie parser.
- The `requireAuth` guard and the `/index3.html` intercept.
- Two-factor login (password plus PIN).
- Password validation, password and PIN changes, and logout.

**The same flows elsewhere:**
- The controller copy in controllers/authController.js.
- The express-session guard in middleware/authMiddleware.js.
- The maintenance gate in middleware/maintenanceMiddleware.js.
- Bulk delete and the watermark-config read in controllers/adminController.js. index.js repeats them: bulk delete at index.js:205-234, the watermark-config read at index.js:181-192.

**Browser side:**
- public/js/admin-logic.js: HTML escaping, the image-source builder, and the form-submit, save-request, bulk-delete and secret-change decisions.
- public/js/index.js: the Cloudinary URL rewriter, tile paths and alt text.

**How it is modelled:**
- Everything is a pure function over immutable values.
- The registry is a `map<string, int>`, and the clock reading `now` is a parameter.
- The fresh session token is a parameter, replacing `crypto.randomBytes`.
- Every awaited database query, bcrypt call and update is an input of type `Fetch<T>`: either the value it resolved to or the message it threw. Each exception path is therefore an ordinary case of the model.
- `decodeURI`, `encodeURIComponent` and `Number` are function parameters that the model does not interpret.
- bcrypt `compare`/`hash` are function parameters too. The handlers are modelled for every pair of them. The two change-then-use lemmas additionally assume a hash with no collisions (`Authenticator.Faithful`); see "## Left out".
- A handler's result is a `Response`: pass to `next`, a redirect (with the `Set-Cookie` it sends), a JSON answer with its status, or an exception Express answers itself.

**Modules:**
- `Values`: optional values, settled promises, JavaScript truthiness.
- `Strings`: the JavaScript string built-ins used.
- `Http`: responses and cookies.
- `Cookies`: `parseCookies`.
- `Sessions`: registry, guard, intercept, logout.
- `Authenticator`: login, validate, change.
- `AuthController`: how the controller file is bound.
- `SessionGuard`: express-session `requireAuth`.
- `Maintenance`, `Admin`, `AdminUi`, `Gallery`.

## Model

| member | source | states |
|---|---|---|
| Values.OrEmpty | public/js/admin-logic.js:51 | `s \|\| ''` is the string itself when it is a non-empty string, and `''` when it is missing or empty |
| Strings.IndexOf | public/js/index.js:102 | `indexOf`/`includes`: the result is an occurrence of the pattern with none before it; no result means the pattern occurs nowhere |
| Strings.ReplaceFirst | public/js/index.js:114 | `replace` with a string pattern rewrites only the first occurrence and keeps the text before and after it; with no occurrence the string is unchanged |
| Strings.Split | index.js:31-32 | `split` on one character gives at least one piece, no piece contains the separator, and joining the pieces gives the input back |
| Strings.SplitJoin | index.js:32-33 | splitting a join of separator-free pieces gives the pieces back, so `split` and `join` are inverses |
| Strings.SplitAtFirst | index.js:32-33 | the first piece is the text before the first separator, and the rest of the pieces joined again is the text after it |
| Strings.Trim | index.js:33 | `trim` returns a slice of the input with only white space before and after it, and no white space at either end of the slice; a string without white space at its ends is returned unchanged |
| Strings.Lower | middleware/maintenanceMiddleware.js:16 | `toLowerCase` keeps the length and lower-cases each character independently |
| Cookies.CookiePieceParts | index.js:32-33 | a cookie's key is the trimmed text before its first `=`, and its value is everything after that `=`, further `=` included |
| Cookies.Entries | index.js:31-33 | each `;`-separated piece contributes its key and its `decodeURI`-decoded value, in order |
| Cookies.Parse | index.js:29-36 | a missing or empty `Cookie` header gives an empty jar |
| Cookies.CollectKeys | index.js:31-34 | a key other than `__proto__` is in the jar exactly when some cookie piece has it; `__proto__` never is, since the plain object's prototype setter ignores a string |
| Cookies.CollectLastWins | index.js:31-34 | when a key other than `__proto__` repeats, the jar holds the value of its last occurrence |
| Cookies.ParseLastWins | index.js:29-36 | for a present header: a key `k` other than `__proto__` is in the jar iff some piece has it, and its value is the decoded value of the last such piece; `__proto__` is never stored |
| Cookies.SessionCookieRoundTrip | index.js:29-36 | the header `session_id=<token>` parses to a jar whose `session_id` is the decoded token |
| Sessions.SessionIdOfCookie | index.js:40-41 | the cookie the browser returns after login yields the token it was given |
| Sessions.RequireAuth | index.js:39-58 | passes iff the cookie names a known session idle for at most 30 minutes; then only that session's time becomes `now`. An expired session is removed, its cookie cleared and the request sent to `/login?error=timeout`. A missing or unknown token goes to `/login` with the registry unchanged. No session is ever created |
| Sessions.Intercept | index.js:61-66 | only `/index3.html` is guarded; every other path passes with the registry unchanged |
| Sessions.Logout | index.js:259-264 | always clears the cookie and redirects to `/login`; the cookie's session is removed if present, and otherwise the registry is unchanged |
| Sessions.LogoutIdempotent | index.js:259-264 | logging out twice leaves the same registry and response as logging out once |
| Sessions.LoggedOutIsRejected | index.js:39-58 | after logout the same cookie is sent to `/login` by the guard |
| Sessions.RollingExpiry | index.js:47-55 | after a pass at `t1`, the same cookie passes at any time up to `t1 + 30 min` and is timed out after that |
| Sessions.TimedOutStaysOut | index.js:43-51 | once the guard has answered a cookie with the timeout redirect, the same cookie is sent to `/login` at every later time and the registry stays as the timeout left it |
| Authenticator.SelectFirst | index.js:76 | `LIMIT 1`: at most one row, the table's first |
| Authenticator.Login | index.js:71-95 | a session `token ↦ now` is added, with the one-day cookie and a redirect to `/admin`, exactly when the first admin row exists and both password and PIN match. No row, either mismatch, or any exception gives `/login?error=1` with the registry unchanged |
| Authenticator.ValidatePassword | index.js:97-109 | `success` is true exactly when an admin row exists and the password matches with no exception; it never touches the registry |
| Authenticator.LoginImpliesValidPassword | index.js:78-109 | every login that reaches `/admin` used a password that validation accepts |
| Authenticator.ChangeSecret | index.js:111-159 | a hash is written iff the old secret matches the first row and hashing and update succeed; the write is `hash(new)` into the row's id. No row gives 404 `Admin config not found`. A wrong old secret gives `success:false` with the kind's message and no write. Status 500 with `success:false` iff some step threw |
| Authenticator.ApplyWrite | index.js:125-127 | the update changes only the written column of the row with that id and leaves other rows alone |
| Authenticator.ChangePasswordThenValidate | index.js:111-130 | after a successful password change the new password validates and the old one (if different) does not |
| Authenticator.ChangePinThenLogin | index.js:136-155 | after a successful PIN change, login with the same password and the new PIN is accepted, and with the old PIN (if different) refused |
| Authenticator.ProtectedChange | index.js:111-159 | the change routes run the guard first: a write needs a live session, and a rejected request writes nothing and gets the guard's answer |
| Authenticator.SessionLifecycle | index.js:71-95 | a session created at login admits the returned cookie within the timeout, and after logout that cookie is refused |
| AuthController.Login | controllers/authController.js:11-31 | the redirect goes to `/admin` iff the registry is bound and the login is accepted; when it is bound the handler behaves like the server's login |
| AuthController.Logout | controllers/authController.js:33-38 | with no cookie parser the handler throws before answering; with a bound registry it behaves like the server's logout |
| AuthController.ImportedLoginNeverAdmits | controllers/authController.js:5-30 | as imported, every login redirects to `/login?error=1` |
| AuthController.ImportedLoginRefusesValidAdmin | controllers/authController.js:17-24 | a concrete admin whom the server admits is refused by the controller as imported |
| AuthController.ImportedLogoutAlwaysFails | controllers/authController.js:33-38 | as imported, every logout ends in an uncaught exception |
| AuthController.WiredMatchesServer | controllers/authController.js:11-38 | with the registry passed in, controller login and logout equal the server's |
| SessionGuard.RequireAuth | middleware/authMiddleware.js:3-10 | passes iff the session has a truthy username, and then copies it to `req.username`; otherwise redirects to `/login` with the request unchanged. The session itself is never changed |
| SessionGuard.RequireAuthIdempotent | middleware/authMiddleware.js:4-7 | running the guard again on a request it let through changes nothing |
| Maintenance.Check | middleware/maintenanceMiddleware.js:9-42 | static assets and excluded prefixes pass without reading the flag. Any other request is redirected to `/maintenance` iff a row exists with `is_maintenance` true and the session has no username; the only outcomes are pass and that redirect |
| Maintenance.FailsOpen | middleware/maintenanceMiddleware.js:38-41 | a failed flag read never blocks a request |
| Maintenance.ExcludedPasses | middleware/maintenanceMiddleware.js:15-19 | every path whose lower-cased form starts with an excluded prefix passes without the flag being read, whatever the flag and the session |
| Maintenance.LoginPrefixPasses | middleware/maintenanceMiddleware.js:15-19 | every path whose lower-cased form starts with `/login` passes without a flag read, in any letter case and including longer paths such as `/loginx` |
| Maintenance.CaseInsensitive | middleware/maintenanceMiddleware.js:4-16 | a path and its lower-cased form get the same decision: the extension test ignores case through the regular expression's `/i` flag, and the prefix test runs on the lower-cased path |
| Maintenance.LoginAlwaysReachable | middleware/maintenanceMiddleware.js:15-19 | the paths `/login`, `/LOGIN` and `/loginx` each pass without a flag read, whatever the flag and the session |
| Maintenance.NoDotNoAsset | middleware/maintenanceMiddleware.js:4 | a path without `.` is never treated as a static asset |
| Maintenance.MaintenanceScenario | middleware/maintenanceMiddleware.js:11-36 | under maintenance the home page is redirected, while login, a stylesheet and a logged-in admin pass |
| Admin.TableFor | controllers/adminController.js:51 | the `personals` table is chosen iff the category is exactly `personal` |
| Admin.Selected | controllers/adminController.js:54-56 | the selected ids are exactly the numeric values of the given elements |
| Admin.RemovedCount | controllers/adminController.js:62-66 | the number of rows removed is the number of selected ids present in the table |
| Admin.BulkDelete | controllers/adminController.js:44-71 | without a non-empty `ids` array: 400 `Tidak ada ID yang dipilih`, nothing deleted. Otherwise only the chosen table changes, losing exactly the selected rows; `destroy` is called for exactly the removed rows that have a `public_id`; `count` is the number removed; an exception gives 500 |
| Admin.GetWmConfig | controllers/adminController.js:21-32 | the answer is the first row's `wm_text`, or `''` when there is no row or the text is empty or null; an exception gives 500 |
| Admin.BulkDeleteIdempotent | controllers/adminController.js:54-66 | repeating a bulk delete removes nothing more and reports a count of 0 |
| AdminUi.EscapeChar | public/js/admin-logic.js:52 | the five special characters become entities; every other character is kept as it is |
| AdminUi.Escape | public/js/admin-logic.js:50-53 | the output has no raw `<`, `>`, `"` or `'`, and text without special characters is unchanged |
| AdminUi.EscapeHtml | public/js/admin-logic.js:50-51 | a missing or empty value escapes to `''` |
| AdminUi.EscapeConcat | public/js/admin-logic.js:51-53 | escaping works character by character: the escape of a concatenation is the concatenation of the escapes |
| AdminUi.UnescapeEscape | public/js/admin-logic.js:50-53 | reading the escaped text back gives the original, so escaping loses nothing |
| AdminUi.GetImgSrc | public/js/admin-logic.js:56-60 | an empty path gives the placeholder, an `http` path is kept, and anything else becomes `/images/<folder>/<path>`; the result starts with `http` or `/images/`. A stored name such as `httpd.png` also starts with `http`, so it is kept as a relative URL |
| AdminUi.SubmitDecision | public/js/admin-logic.js:94-130 | an empty trimmed title is refused. An edit without a file saves with the existing URL and `public_id`. A new item without a file is refused. A submit with a file uploads, then saves |
| AdminUi.SaveRequest | public/js/admin-logic.js:132-147 | PUT to `/api/<table>/<id>` when there is an id, POST to `/api/<table>` otherwise. Personal works send `name` with the placeholder description, commissions send `title` with a null description |
| AdminUi.EditWithoutFileKeepsImage | public/js/admin-logic.js:109-113 | an edit without a new file becomes a PUT for that id that carries the stored image and `public_id` |
| AdminUi.NewItemIsPosted | public/js/admin-logic.js:121-136 | a new item is created with POST after its upload |
| AdminUi.BulkDeleteClick | public/js/admin-logic.js:358-377 | with nothing checked no request is sent; otherwise, after confirmation, the checked ids and the category go to `DELETE /api/admin/bulk-delete` |
| AdminUi.BulkDeleteClickAccepted | public/js/admin-logic.js:360-376 | every bulk delete the panel sends passes the server's `ids` check, and the server deletes from the table whose checkboxes were collected |
| AdminUi.ChangeSecretClick | public/js/admin-logic.js:422-484 | a request is sent iff both fields are non-empty, carrying the old and new values to the kind's endpoint in the `oldPassword`/`newPassword` or `oldPin`/`newPin` fields the server reads |
| AdminUi.ChangeSecretClickReachesServer | public/js/admin-logic.js:434-439 | a change the panel sends with the right old value writes the new value's hash into the admin row, when hashing and the update succeed; with a wrong old value nothing is written |
| Gallery.Params | public/js/index.js:104-112 | thumbnails are cropped to 600x750; the full view carries the encoded watermark overlay when there is watermark text; otherwise only `f_auto,q_auto`. All start with `f_auto,q_auto` |
| Gallery.CloudinaryUrl | public/js/index.js:101-115 | a missing URL, one not on `cloudinary.com`, or one without `/upload/` is unchanged; otherwise the parameters are inserted after the first `/upload/` |
| Gallery.InsertThenStrip | public/js/index.js:114 | inserting `/<params>` after the first `/upload/` can be undone exactly, and lengthens the URL by the parameter segment |
| Gallery.StripParams | public/js/index.js:101-115 | every rewritten Cloudinary URL differs from the stored one, and removing the parameter segment gives the stored URL back |
| Gallery.NoWatermarkWithoutText | public/js/index.js:108-112 | with no watermark text the full view uses the plain parameters |
| Gallery.LoadedWmText | public/js/index.js:95-97 | the loaded watermark text is the `wm_text` of the answer, and falsy when the answer has none |
| Gallery.FullViewUsesStoredText | public/js/index.js:95-112 | once the watermark config has loaded, the full view carries the administrator's stored watermark text exactly when one is stored and non-empty |
| Gallery.RawPath | public/js/index.js:234 | an `http` image path is kept, and any other path is served from `/images/<folder>/`; a missing `image_path` throws |
| Gallery.RawPathMatchesAdmin | public/js/index.js:234 | for a non-empty path the gallery and the admin panel show the same address; for an empty one the panel shows its placeholder |
| Gallery.RenderGrid | public/js/index.js:227-240 | the grid is re-rendered iff the list is non-empty and every row has an `image_path`, because one missing path throws inside the `map` and leaves the whole grid as it was. Each tile's fields are the strings the template interpolates: the thumbnail URL of its raw path, that raw path for the full view, and the name-title-`Untitled` alt text. What the browser makes of them is under Findings and Left out |
| Gallery.UnescapedAltIsCut | public/js/index.js:236 | the tile of a work named `5" print` has the alt attribute `5`: the unescaped `"` closes the attribute early |
| Gallery.EscapedAltReadsBack | public/js/admin-logic.js:50-54 | alt text escaped as the admin panel escapes it is read back by the attribute parser exactly, whatever follows the closing quote |
| Gallery.TileSourceStripsToView | public/js/index.js:234-236 | removing the thumbnail parameters from a tile's Cloudinary source gives back the path its full view opens |
| Gallery.AltText | public/js/index.js:236 | the alt text is the name, else the title, else `Untitled`, and is never empty |

## Left out

- Prisma queries, Cloudinary `upload_stream`, multer and sharp are foreign I/O. Their results are `Fetch` inputs, and a row is reduced to the columns the handlers read.
- Cloudinary `destroy` is assumed to resolve. A rejected `destroy` would abort the bulk delete with a 500 after some images were already removed. The model records which `destroy` calls are made, not their failure.
- Concurrency: the interleaving of async requests on the shared registry is not modelled. Each handler runs as one step from the registry it is given.
- Gallery.FullViewUsesStoredText: states the full view only once the watermark config has loaded. `fetchWmConfig()` is not awaited (public/js/index.js:264) and runs alongside `loadData`. A full view opened before its answer arrives, or after the fetch rejects, uses the initial `globalWmText = ''` (public/js/index.js:91), so it shows no watermark even when one is stored. That race is not modelled.
- Gallery.RenderGrid: the tile fields are the strings interpolated into the markup, and the source does not escape them. HTML attribute parsing is modelled only for `alt` (`Gallery.AttributeValue`, decoding the five entities `escapeHtml` writes). The `onclick` JavaScript literal is not modelled: an `image_path` containing `'` ends the `openView('…')` string early, and the tile then opens nothing. `caption.innerHTML = title` (public/js/index.js:135) parses the alt text again as HTML, which is not modelled either.
- `decodeURI` throwing `URIError` on a malformed cookie is not modelled; `decodeURI` is a total function parameter. Likewise `encodeURIComponent` throwing `URIError` on a lone surrogate in `wm_text` (public/js/index.js:110) is not modelled; it is a total parameter too. Text stored through UTF-8 holds no lone surrogate.
- AdminUi.GetImgSrc: the `http` test is a plain prefix test, as at public/js/admin-logic.js:58. A relative name that starts with `http` is returned as it is, and the model does not say which URLs are absolute.
- Strings.Lower: `toLowerCase` and the `/i` flag are modelled on ASCII letters only. The extensions and excluded prefixes are ASCII, and the non-ASCII characters whose lower case is ASCII (U+0130, U+212A) cannot complete any of them.
- Authenticator.Login: bcrypt's 72-byte truncation and its cost factor are inside the `compare`/`hash` parameters, which the handlers do not interpret.
- Authenticator.ChangePasswordThenValidate, Authenticator.ChangePinThenLogin: both assume `Authenticator.Faithful`, a hash with no collisions, where a hash of `p` is matched by `p` and nothing else. bcrypt ignores every byte after the 72nd. An old secret that shares its first 72 bytes with the new one therefore still matches after the change, and there the lemmas' "the old one no longer does" does not hold.
- Admin.Selected: `Number` is a parameter returning `None` for NaN or a non-integer, and such an element selects no id. Prisma's rejection of a NaN id is not derived from the ids; it is the `FindThrew` fault input of `Admin.BulkDelete`.
- Strings.ReplaceFirst: the replacement is taken literally. JavaScript's `$` patterns are not modelled, because the only replacement the system builds is a parameter string that starts with `/upload/f_auto`. An `encodeURIComponent` result never contains `$`.
- routes/*.js only wires handlers. routes/adminRoutes.js:11-13 names handlers (`getMaintenanceStatus`, `updateMaintenanceStatus`, `getSession`) that controllers/adminController.js does not define.
- `getStats`, `updateWmConfig`, `getConfig` and the gallery CRUD handlers in controllers/galleryController.js and index.js are left out: they are plain database wrappers.
- `createWatermarkSvg` in controllers/uploadController.js uses floating-point font sizing and SVG text, so it is left out.
- prisma/seed.js (provisioning), public/js/login.js, public/js/liquid-menu.js, and the modal, drag, zoom and animation code of the two page scripts are DOM work, and are left out.
- AdminUi.SubmitDecision: the upload itself and the save request's network failure are left out. The model states which request is made, not how the page reacts to its answer.
- Divergence, not a defect: the login cookie lives for one day (`Max-Age=86400`, index.js:87) while the server forgets an idle session after 30 minutes (index.js:26). A browser can therefore keep sending a cookie the guard answers with `/login?error=timeout`; `Sessions.RollingExpiry` states that behaviour.

## Findings

| source | as written | input that shows it | evidently intended | confidence | as-written member | corrected member |
|---|---|---|---|---|---|---|
| controllers/authController.js:5-22 | `sessions` is taken from middleware/authMiddleware.js, which exports only `requireAuth` (middleware/authMiddleware.js:12). `sessions.set` throws a TypeError, which the handler's `catch` swallows | an admin row whose hashes match password `p1` and PIN `1234`, logging in with exactly those | the login reaches `/admin` and a session is stored, as in index.js:84-88 | not executed | AuthController.ImportedLoginRefusesValidAdmin | AuthController.WiredMatchesServer |
| controllers/authController.js:33-38 | `parseCookies` is undefined for the same reason. `logout` calls it outside any `try`, so Express answers with an error | any request to `/logout` through the controller's route | the cookie's session is removed, the cookie cleared and the browser sent to `/login`, as in index.js:259-264 | not executed | AuthController.ImportedLogoutAlwaysFails | AuthController.WiredMatchesServer |
| public/js/index.js:236 | the gallery interpolates `name \|\| title \|\| 'Untitled'` into `alt="…"` without escaping, while the admin panel escapes the same fields (public/js/admin-logic.js:78) | a work named `5" print`: its tile's alt attribute reads `5` | the name escaped with `escapeHtml`, so the attribute reads back the stored name | not executed; medium | Gallery.UnescapedAltIsCut | Gallery.EscapedAltReadsBack |

=== FILE: admin.dfy ===
/** The admin controller's bulk delete and watermark-config lookup
    (controllers/adminController.js; the same bulk delete is repeated in
    index.js). A gallery table is a map from row id to row; Prisma's queries
    and Cloudinary's `destroy` are not run: the model returns the rows left,
    the `destroy` calls made, and takes a thrown query as an input. */
module Admin {
  import opened Values
  import opened Http

  /** A gallery row, reduced to the column bulk delete reads. */
  datatype Item = Item(publicId: Option<string>)

  type Rows = map<int, Item>

  /** The two gallery tables. */
  datatype Table = Personals | ComissionWorks

  /** A table's name, as it appears in the API's URLs. */
  function TableName(t: Table): string
  {
    match t
    case Personals => "personals"
    case ComissionWorks => "comission_works"
  }

  /** The `personals` and `comission_works` tables. */
  datatype Db = Db(personals: Rows, comissionWorks: Rows)

  function RowsOf(db: Db, t: Table): Rows
  {
    match t
    case Personals => db.personals
    case ComissionWorks => db.comissionWorks
  }

  function WithRows(db: Db, t: Table, rows: Rows): (db': Db)
    ensures RowsOf(db', t) == rows
    ensures forall u :: u != t ==> RowsOf(db', u) == RowsOf(db, u)
  {
    match t
    case Personals => db.(personals := rows)
    case ComissionWorks => db.(comissionWorks := rows)
  }

  /** `category === 'personal' ? 'personals' : 'comission_works'` */
  function TableFor(category: Option<string>): (t: Table)
    ensures t == Personals <==> category == Some("personal")
  {
    if category == Some("personal") then Personals else ComissionWorks
  }

  /** `req.body.ids` as the handler tests it. */
  datatype IdsField = Absent | NotArray | ArrayOf(elems: seq<string>)

  /** `Number(x)`, with `None` where the result is not an integer (NaN, a fraction). */
  type ToNumber = string -> Option<int>

  /** `ids.map(Number)`, as the set of ids the `in` filter matches. */
  function Selected(elems: seq<string>, toNumber: ToNumber): (sel: set<int>)
    ensures forall e :: e in elems && toNumber(e).Some? ==> toNumber(e).value in sel
    ensures forall n :: n in sel ==> exists e :: e in elems && toNumber(e) == Some(n)
  {
    set e | e in elems && toNumber(e).Some? :: toNumber(e).value
  }

  /** Where the handler's `try` block threw, if it did. */
  datatype DbFault = NoFault | FindThrew(message: string) | DeleteThrew(message: string)

  /** The response, the tables afterwards, and the `destroy` calls made
      (row id -> `public_id` passed). */
  datatype BulkResult = BulkResult(response: Response, db: Db, destroyed: map<int, string>)

  const NO_IDS_ERROR: string := "Tidak ada ID yang dipilih"

  /** `after` is `before` without exactly the rows whose id is selected. */
  ghost predicate RemovesExactly(before: Rows, after: Rows, sel: set<int>)
  {
    after.Keys <= before.Keys &&
    forall id :: id in before ==> (id in after <==> id !in sel) && (id in after ==> after[id] == before[id])
  }

  /** `destroy` was called once for each selected row with a truthy
      `public_id`, with that `public_id`, and for no other row. */
  ghost predicate DestroysExactly(before: Rows, sel: set<int>, destroyed: map<int, string>)
  {
    forall id :: (id in destroyed <==> id in before && id in sel && Truthy(before[id].publicId)) &&
                 (id in destroyed ==> destroyed[id] == before[id].publicId.value)
  }

  lemma RemovedCount(before: Rows, sel: set<int>)
    ensures |before - sel| == |before| - |before.Keys * sel|
  {
    var kept := (before - sel).Keys;
    var gone := before.Keys * sel;
    assert kept == before.Keys - sel;
    assert before.Keys == kept + gone;
    assert kept !! gone;
    assert |before.Keys| == |kept| + |gone|;
  }

  /** DELETE `/api/admin/bulk-delete`. Without a non-empty `ids` array: 400 and
      nothing touched. Otherwise, in the table chosen by `category`, the rows
      whose id is among `ids.map(Number)` are deleted, and only those; the
      other table never changes; `count` is the number of rows deleted; and
      `destroy` is called for exactly the deleted rows that have a
      `public_id`. A thrown query answers 500 and deletes nothing. */
  function BulkDelete(db: Db, ids: IdsField, category: Option<string>, toNumber: ToNumber, fault: DbFault): (r: BulkResult)
    ensures !(ids.ArrayOf? && |ids.elems| > 0) ==> r == BulkResult(Json(400, Failure(NO_IDS_ERROR)), db, map[])
    ensures ids.ArrayOf? && |ids.elems| > 0 ==>
              var t := TableFor(category);
              var before := RowsOf(db, t);
              var after := RowsOf(r.db, t);
              var sel := Selected(ids.elems, toNumber);
              (forall u :: u != t ==> RowsOf(r.db, u) == RowsOf(db, u)) &&
              (fault.NoFault? ==>
                 RemovesExactly(before, after, sel) &&
                 r.response == Json(200, Deleted(|before.Keys * sel|)) &&
                 |before.Keys * sel| == |before| - |after|) &&
              (!fault.NoFault? ==> r.db == db && r.response == Json(500, Failure(fault.message))) &&
              (fault.FindThrew? ==> r.destroyed == map[]) &&
              (!fault.FindThrew? ==> DestroysExactly(before, sel, r.destroyed))
  {
    if !(ids.ArrayOf? && |ids.elems| > 0) then BulkResult(Json(400, Failure(NO_IDS_ERROR)), db, map[])
    else
      var t := TableFor(category);
      var rows := RowsOf(db, t);
      var sel := Selected(ids.elems, toNumber);
      if fault.FindThrew? then BulkResult(Json(500, Failure(fault.message)), db, map[])
      else
        var items := rows.Keys * sel;
        var destroyed := map id | id in items && Truthy(rows[id].publicId) :: rows[id].publicId.value;
        if fault.DeleteThrew? then BulkResult(Json(500, Failure(fault.message)), db, destroyed)
        else
          RemovedCount(rows, sel);
          BulkResult(Json(200, Deleted(|items|)), WithRows(db, t, rows - sel), destroyed)
  }

  /** GET `/api/wm-config`: the first row's `wm_text`, or `''` when there is
      no row or the text is empty or null; a thrown query answers 500. */
  function GetWmConfig(rows: Fetch<seq<Option<string>>>): (r: Response)
    ensures rows.Threw? ==> r == Json(500, Failure(rows.message))
    ensures rows.Fetched? ==> r.Json? && r.status == 200 && r.body.WmConfig?
    ensures rows.Fetched? && (|rows.value| == 0 || !Truthy(rows.value[0])) ==> r.body.wmText == ""
    ensures rows.Fetched? && |rows.value| > 0 && Truthy(rows.value[0]) ==> r.body.wmText == rows.value[0].value
  {
    match rows
    case Threw(m) => Json(500, Failure(m))
    case Fetched(admins) =>
      if |admins| > 0 then Json(200, WmConfig(OrEmpty(admins[0]))) else Json(200, WmConfig(""))
  }

  /** Deleting the same ids twice deletes nothing the second time. */
  lemma BulkDeleteIdempotent(db: Db, elems: seq<string>, category: Option<string>, toNumber: ToNumber)
    requires |elems| > 0
    ensures var once := BulkDelete(db, ArrayOf(elems), category, toNumber, NoFault);
            var twice := BulkDelete(once.db, ArrayOf(elems), category, toNumber, NoFault);
            twice.db == once.db && twice.response == Json(200, Deleted(0)) && twice.destroyed == map[]
  {
    var once := BulkDelete(db, ArrayOf(elems), category, toNumber, NoFault);
    var t := TableFor(category);
    var sel := Selected(elems, toNumber);
    var after := RowsOf(once.db, t);
    assert after.Keys * sel == {};
    assert after - sel == after;
    var twice := BulkDelete(once.db, ArrayOf(elems), category, toNumber, NoFault);
    assert RowsOf(twice.db, t) == after;
    assert WithRows(once.db, t, after) == once.db;
  }
}

=== FILE: admin_ui.dfy ===
/** The decision logic of the admin panel script (public/js/admin-logic.js):
    HTML escaping, the image-source builder, what a gallery form submit does,
    which request a save sends, and the guards in front of bulk delete and
    the secret changes. The page's DOM is reduced to the values read from it;
    the result is the action the script takes. */
module AdminUi {
  import opened Values
  import opened Strings
  import opened Http
  import Admin
  import Authenticator

  // ---- escapeHtml ----

  /** The five characters `escapeHtml` rewrites. */
  predicate Special(c: char)
  {
    c == '&' || c == '<' || c == '>' || c == '"' || c == '\''
  }

  /** The entity `escapeHtml` substitutes for one character. */
  function EscapeChar(c: char): (r: string)
    ensures !Special(c) ==> r == [c]
    ensures Special(c) ==> |r| > 1 && r[0] == '&' && r[|r| - 1] == ';'
  {
    match c
    case '&' => "&amp;"
    case '<' => "&lt;"
    case '>' => "&gt;"
    case '"' => "&quot;"
    case '\'' => "&#39;"
    case _ => [c]
  }

  /** The `replace(/[&<>"']/g, ...)`: the result holds no raw `<`, `>`, `"` or
      `'`, and a string without the five special characters is unchanged. */
  function Escape(s: string): (r: string)
    ensures forall i :: 0 <= i < |r| ==> r[i] != '<' && r[i] != '>' && r[i] != '"' && r[i] != '\''
    ensures (forall i :: 0 <= i < |s| ==> !Special(s[i])) ==> r == s
    ensures |r| >= |s|
  {
    if |s| == 0 then "" else EscapeChar(s[0]) + Escape(s[1..])
  }

  /** `escapeHtml(s)`: `String(s || '')` escaped, so a missing value gives `''`. */
  function EscapeHtml(s: Option<string>): (r: string)
    ensures !Truthy(s) ==> r == ""
    ensures Truthy(s) ==> r == Escape(s.value)
  {
    Escape(OrEmpty(s))
  }

  /** Escaping works character by character. */
  lemma {:induction false} EscapeConcat(a: string, b: string)
    ensures Escape(a + b) == Escape(a) + Escape(b)
    decreases |a|
  {
    if |a| > 0 {
      assert (a + b)[0] == a[0];
      assert (a + b)[1..] == a[1..] + b;
      EscapeConcat(a[1..], b);
    } else {
      assert a + b == b;
    }
  }

  /** The browser's reading of the five entities, and of every other character
      as itself. */
  function Unescape(s: string): string
  {
    if |s| == 0 then ""
    else if s[0] != '&' then [s[0]] + Unescape(s[1..])
    else if StartsWith(s, "&amp;") then "&" + Unescape(s[5..])
    else if StartsWith(s, "&lt;") then "<" + Unescape(s[4..])
    else if StartsWith(s, "&gt;") then ">" + Unescape(s[4..])
    else if StartsWith(s, "&quot;") then "\"" + Unescape(s[6..])
    else if StartsWith(s, "&#39;") then "'" + Unescape(s[5..])
    else [s[0]] + Unescape(s[1..])
  }

  lemma UnescapePlain(c: char, rest: string)
    requires c != '&'
    ensures Unescape([c] + rest) == [c] + Unescape(rest)
  {
    assert ([c] + rest)[1..] == rest;
  }

  lemma UnescapeAmp(rest: string)
    ensures Unescape("&amp;" + rest) == "&" + Unescape(rest)
  {
    var s := "&amp;" + rest;
    assert s[..5] == "&amp;" && s[5..] == rest;
  }

  lemma UnescapeLt(rest: string)
    ensures Unescape("&lt;" + rest) == "<" + Unescape(rest)
  {
    var s := "&lt;" + rest;
    assert s[1] == 'l';
    assert s[..4] == "&lt;" && s[4..] == rest;
  }

  lemma UnescapeGt(rest: string)
    ensures Unescape("&gt;" + rest) == ">" + Unescape(rest)
  {
    var s := "&gt;" + rest;
    assert s[1] == 'g';
    assert s[..4] == "&gt;" && s[4..] == rest;
  }

  lemma UnescapeQuot(rest: string)
    ensures Unescape("&quot;" + rest) == "\"" + Unescape(rest)
  {
    var s := "&quot;" + rest;
    assert s[1] == 'q';
    assert s[..6] == "&quot;" && s[6..] == rest;
  }

  lemma UnescapeApos(rest: string)
    ensures Unescape("&#39;" + rest) == "'" + Unescape(rest)
  {
    var s := "&#39;" + rest;
    assert s[1] == '#';
    assert s[..5] == "&#39;" && s[5..] == rest;
  }

  lemma UnescapeStep(c: char, rest: string)
    ensures Unescape(EscapeChar(c) + rest) == [c] + Unescape(rest)
  {
    match c
    case '&' => UnescapeAmp(rest);
    case '<' => UnescapeLt(rest);
    case '>' => UnescapeGt(rest);
    case '"' => UnescapeQuot(rest);
    case '\'' => UnescapeApos(rest);
    case _ => UnescapePlain(c, rest);
  }

  /** Reading the escaped text back gives the original: escaping loses nothing. */
  lemma {:induction false} UnescapeEscape(s: string)
    ensures Unescape(Escape(s)) == s
    decreases |s|
  {
    if |s| > 0 {
      UnescapeStep(s[0], Escape(s[1..]));
      UnescapeEscape(s[1..]);
    }
  }

  // ---- getImgSrc ----

  const PLACEHOLDER_IMAGE: string := "https://via.placeholder.com/200?text=No+Image"

  lemma PlaceholderIsRemote()
    ensures StartsWith(PLACEHOLDER_IMAGE, "http")
  {
    assert PLACEHOLDER_IMAGE == "http" + "s://via.placeholder.com/200?text=No+Image";
  }

  /** `getImgSrc(path, folder)`: an empty path shows the placeholder, an
      `http`-prefixed one is used as it is, anything else is served from
      `/images/<folder>/`. The source starts with `http` or `/images/`; a
      stored name such as `httpd.png` is kept, and is then a relative URL. */
  function GetImgSrc(path: Option<string>, folder: string): (r: string)
    ensures !Truthy(path) ==> r == PLACEHOLDER_IMAGE
    ensures Truthy(path) && StartsWith(path.value, "http") ==> r == path.value
    ensures Truthy(path) && !StartsWith(path.value, "http") ==>
              r == "/images/" + folder + "/" + path.value && EndsWith(r, "/" + path.value)
    ensures StartsWith(r, "http") || StartsWith(r, "/images/")
  {
    if !Truthy(path) then
      PlaceholderIsRemote();
      PLACEHOLDER_IMAGE
    else if StartsWith(path.value, "http") then path.value
    else
      var r := "/images/" + folder + "/" + path.value;
      assert r[..8] == "/images/";
      assert r[|r| - |"/" + path.value|..] == "/" + path.value;
      r
  }

  // ---- gallery form submit and save ----

  /** The form fields the submit handler reads. */
  datatype Form = Form(titleInput: string, id: string, fileCount: nat, existingUrl: string, existingPublicId: string)

  /** The status messages shown instead of sending anything. */
  datatype Notice =
    | TitleRequired       // "Judul wajib diisi!"
    | ImageRequired       // "Pilih gambar dulu!"
    | SelectAtLeastOne    // "Pilih minimal satu item untuk dihapus."
    | BothFieldsRequired  // "Mohon isi kedua kolom password." / "... PIN."

  /** What a submit does: show a notice, save with the stored image, or upload
      the chosen file and then save with the uploaded image. */
  datatype Submit =
    | Reject(notice: Notice)
    | SaveAsIs(id: string, title: string, imageUrl: string, publicId: string)
    | UploadThenSave(editId: Option<string>, title: string)

  /** `handlePersonalSubmit` / `handleComissionSubmit` (identical decisions):
      an empty trimmed title is refused; an edit without a new file saves with
      the existing image and skips the upload; a new item without a file is
      refused; any submit with a file uploads first. */
  function SubmitDecision(form: Form): (d: Submit)
    ensures Trim(form.titleInput) == "" ==> d == Reject(TitleRequired)
    ensures d.SaveAsIs? <==> Trim(form.titleInput) != "" && form.id != "" && form.fileCount == 0
    ensures d.SaveAsIs? ==> d == SaveAsIs(form.id, Trim(form.titleInput), form.existingUrl, form.existingPublicId)
    ensures d == Reject(ImageRequired) <==> Trim(form.titleInput) != "" && form.id == "" && form.fileCount == 0
    ensures d.UploadThenSave? <==> Trim(form.titleInput) != "" && form.fileCount > 0
    ensures d.UploadThenSave? ==>
              d.title == Trim(form.titleInput) && (d.editId.Some? <==> form.id != "") && (d.editId.Some? ==> d.editId.value == form.id)
  {
    var title := Trim(form.titleInput);
    var id := if form.id == "" then None else Some(form.id);  // `value || null`
    if title == "" then Reject(TitleRequired)
    else if id.Some? && form.fileCount == 0 then SaveAsIs(id.value, title, form.existingUrl, form.existingPublicId)
    else if id.None? && form.fileCount == 0 then Reject(ImageRequired)
    else UploadThenSave(id, title)
  }

  /** The JSON bodies the panel sends. */
  datatype RequestBody =
    | SaveBody(titleField: string, title: string, imagePath: string, publicId: string, description: Option<string>)
    | BulkBody(ids: seq<string>, category: string)
    | SecretBody(oldField: string, oldValue: string, newField: string, newValue: string)

  datatype ApiRequest = ApiRequest(verb: string, url: string, body: RequestBody)

  /** `savePersonalToDB` / `saveComissionToDB`: PUT to `/api/<table>/<id>` when
      there is an id, POST to `/api/<table>` otherwise. Personal works send
      their title as `name` with a placeholder description, commissions as
      `title` with a null description. */
  function SaveRequest(table: Admin.Table, id: Option<string>, title: string, imageUrl: string, publicId: string): (q: ApiRequest)
    ensures Truthy(id) ==> q.verb == "PUT" && q.url == "/api/" + Admin.TableName(table) + "/" + id.value
    ensures !Truthy(id) ==> q.verb == "POST" && q.url == "/api/" + Admin.TableName(table)
    ensures q.body.SaveBody? && q.body.title == title && q.body.imagePath == imageUrl && q.body.publicId == publicId
    ensures table.Personals? ==> q.body.titleField == "name" && q.body.description == Some("Uploading.....")
    ensures table.ComissionWorks? ==> q.body.titleField == "title" && q.body.description == None
  {
    var url := if Truthy(id) then "/api/" + Admin.TableName(table) + "/" + id.value else "/api/" + Admin.TableName(table);
    var verb := if Truthy(id) then "PUT" else "POST";
    var body := match table
      case Personals => SaveBody("name", title, imageUrl, publicId, Some("Uploading....."))
      case ComissionWorks => SaveBody("title", title, imageUrl, publicId, None);
    ApiRequest(verb, url, body)
  }

  /** Editing an item without choosing a new file updates that item in place,
      keeping its stored image and `public_id`. */
  lemma EditWithoutFileKeepsImage(table: Admin.Table, form: Form)
    requires Trim(form.titleInput) != "" && form.id != "" && form.fileCount == 0
    ensures var d := SubmitDecision(form);
            var q := SaveRequest(table, Some(d.id), d.title, d.imageUrl, d.publicId);
            q.verb == "PUT" && q.url == "/api/" + Admin.TableName(table) + "/" + form.id &&
            q.body.imagePath == form.existingUrl && q.body.publicId == form.existingPublicId
  {
  }

  /** A new item is always created with POST, after its upload. */
  lemma NewItemIsPosted(table: Admin.Table, form: Form, imageUrl: string, publicId: string)
    requires form.id == "" && SubmitDecision(form).UploadThenSave?
    ensures var d := SubmitDecision(form);
            SaveRequest(table, d.editId, d.title, imageUrl, publicId).verb == "POST"
  {
  }

  // ---- action guards ----

  /** What a button press does: show a notice, stop at the confirmation, or
      send a request. */
  datatype Action = Show(notice: Notice) | Cancelled | Send(request: ApiRequest)

  /** The checkbox class `handleBulkDelete` collects for a category. */
  function CheckboxClass(category: string): string
  {
    if category == "personal" then ".bulk-personal" else ".bulk-commission"
  }

  /** `handleBulkDelete`: with nothing checked no request is sent; after the
      confirmation the checked ids and the category go to the bulk-delete
      endpoint. */
  function BulkDeleteClick(category: string, checked: seq<string>, confirmed: bool): (a: Action)
    ensures |checked| == 0 ==> a == Show(SelectAtLeastOne)
    ensures a.Send? <==> |checked| > 0 && confirmed
    ensures a.Send? ==> a.request == ApiRequest("DELETE", "/api/admin/bulk-delete", BulkBody(checked, category))
  {
    if |checked| == 0 then Show(SelectAtLeastOne)
    else if !confirmed then Cancelled
    else Send(ApiRequest("DELETE", "/api/admin/bulk-delete", BulkBody(checked, category)))
  }

  /** Every bulk-delete request the panel sends passes the server's `ids`
      check, and the server deletes from the table whose checkboxes the panel
      collected. */
  lemma BulkDeleteClickAccepted(category: string, checked: seq<string>, db: Admin.Db, toNumber: Admin.ToNumber)
    requires BulkDeleteClick(category, checked, true).Send?
    ensures var body := BulkDeleteClick(category, checked, true).request.body;
            Admin.BulkDelete(db, Admin.ArrayOf(body.ids), Some(body.category), toNumber, Admin.NoFault).response.status == 200
    ensures Admin.TableFor(Some(category)).Personals? <==> CheckboxClass(category) == ".bulk-personal"
  {
  }

  function ChangeEndpoint(kind: Authenticator.Secret): string
  {
    match kind
    case Password => "/api/change-password"
    case Pin => "/api/change-pin"
  }

  /** `handleChangePassword` / `handleChangePin`: with either field empty no
      request is sent; otherwise the old and new values go, in their own
      fields, to the kind's endpoint. */
  function ChangeSecretClick(kind: Authenticator.Secret, oldValue: string, newValue: string): (a: Action)
    ensures a.Send? <==> oldValue != "" && newValue != ""
    ensures !a.Send? ==> a == Show(BothFieldsRequired)
    ensures a.Send? ==>
              a.request.verb == "POST" && a.request.url == ChangeEndpoint(kind) &&
              a.request.body.SecretBody? &&
              a.request.body.oldValue == oldValue && a.request.body.newValue == newValue
    ensures a.Send? && kind == Authenticator.Password ==>
              a.request.body.oldField == "oldPassword" && a.request.body.newField == "newPassword"
    ensures a.Send? && kind == Authenticator.Pin ==>
              a.request.body.oldField == "oldPin" && a.request.body.newField == "newPin"
  {
    if oldValue == "" || newValue == "" then Show(BothFieldsRequired)
    else
      var body := match kind
        case Password => SecretBody("oldPassword", oldValue, "newPassword", newValue)
        case Pin => SecretBody("oldPin", oldValue, "newPin", newValue);
      Send(ApiRequest("POST", ChangeEndpoint(kind), body))
  }

  /** A change the panel sends with the right old value, against a server
      whose hashing and update succeed, writes the new value's hash into the
      admin row; with a wrong old value nothing is written. */
  lemma ChangeSecretClickReachesServer(kind: Authenticator.Secret, oldValue: string, newValue: string,
                                       row: Authenticator.AdminRow, compare: Authenticator.Compare,
                                       hash: Authenticator.Hasher, update: Fetch<int>)
    requires ChangeSecretClick(kind, oldValue, newValue).Send?
    requires hash(newValue).Fetched? && update.Fetched?
    ensures var b := ChangeSecretClick(kind, oldValue, newValue).request.body;
            var c := Authenticator.ChangeSecret(kind, Fetched([row]), b.oldValue, b.newValue, compare, hash, update);
            (compare(oldValue, Authenticator.Stored(kind, row)) == Fetched(true) ==>
               c.write == Some(Authenticator.Write(kind, row.id, hash(newValue).value))) &&
            (compare(oldValue, Authenticator.Stored(kind, row)) == Fetched(false) ==> c.write.None?)
  {
  }
}

=== FILE: auth_controller.dfy ===
/** controllers/authController.js: the same login and logout handlers as
    index.js, but taking `sessions` and `parseCookies` from
    `require('../middleware/authMiddleware')`, a module that exports only
    `requireAuth`. The import is a parameter here: `AS_IMPORTED` is what the
    file actually gets (both names `undefined`), `Wired` is the registry the
    handlers evidently mean to share. Its password check and change handlers
    are textually those of index.js and are modelled once, in Authenticator. */
module AuthController {
  import opened Values
  import opened Http
  import opened Sessions
  import opened Authenticator

  /** A name bound by destructuring a `require`: an export, or `undefined`.
      Kept apart from `Option` because `undefined` here is a wiring defect
      that throws on first use, not an absent value a handler tests for. */
  datatype Binding<T> = Undefined | Bound(value: T)

  /** The two names the controller takes from the middleware module. */
  datatype Imports = Imports(sessions: Binding<Registry>, parseCookies: bool)

  /** What the file receives: the middleware exports neither name. */
  const AS_IMPORTED: Imports := Imports(Undefined, false)

  /** The intended wiring: the shared registry and the cookie parser. */
  function Wired(sessions: Registry): (i: Imports)
    ensures i.sessions.Bound? && i.sessions.value == sessions && i.parseCookies
  {
    Imports(Bound(sessions), true)
  }

  /** A response and the registry binding afterwards. */
  datatype Outcome = Outcome(response: Response, sessions: Binding<Registry>)

  /** `exports.login`. With `sessions` undefined, `sessions.set` throws a
      TypeError inside the `try`, which is caught, so even a correct password
      and PIN end at `/login?error=1`. With the registry bound it is exactly the
      login of index.js. */
  function Login(sessions: Binding<Registry>, rows: Fetch<seq<AdminRow>>, password: string, pin: string,
                 compare: Compare, token: Token, now: int): (o: Outcome)
    ensures o.response.Redirect?
    ensures o.response.location == "/admin" <==> sessions.Bound? && Accepts(rows, password, pin, compare)
    ensures sessions.Undefined? ==> o == Outcome(Redirect("/login?error=1", None), Undefined)
    ensures sessions.Bound? ==>
              var s := Authenticator.Login(sessions.value, rows, password, pin, compare, token, now);
              o == Outcome(s.response, Bound(s.sessions))
  {
    var rejected := Outcome(Redirect("/login?error=1", None), sessions);
    match rows
    case Threw(_) => rejected
    case Fetched(admins) =>
      if |admins| == 0 then rejected
      else
        match compare(password, admins[0].passwordHash)
        case Threw(_) => rejected
        case Fetched(passwordOk) =>
          match compare(pin, admins[0].pinHash)
          case Threw(_) => rejected
          case Fetched(pinOk) =>
            if passwordOk && pinOk then
              match sessions
              case Undefined => rejected  // `sessions.set` throws; the catch falls through to the redirect
              case Bound(registry) =>
                Outcome(Redirect("/admin", Some(SessionCookie(token, LOGIN_COOKIE_MAX_AGE))),
                        Bound(registry[token := now]))
            else rejected
  }

  /** `exports.logout`. The handler has no `try` and its first statement calls
      `parseCookies`, so with that name undefined every logout throws and is
      answered with status 500; the cookie is never cleared. With the wiring in
      place it is exactly the logout of index.js. */
  function Logout(imports: Imports, cookieHeader: Option<string>, decode: string -> string): (o: Outcome)
    ensures !imports.parseCookies ==> o == Outcome(Uncaught, imports.sessions)
    ensures imports.parseCookies && imports.sessions.Bound? ==>
              var s := Sessions.Logout(imports.sessions.value, cookieHeader, decode);
              o == Outcome(s.response, Bound(s.sessions))
    ensures imports.parseCookies && imports.sessions.Undefined? ==>
              (o.response == Uncaught <==> SessionId(cookieHeader, decode).Some?)
  {
    if !imports.parseCookies then Outcome(Uncaught, imports.sessions)
    else
      match SessionId(cookieHeader, decode)
      case Some(id) =>
        (match imports.sessions
         case Undefined => Outcome(Uncaught, Undefined)  // `sessions.delete` throws
         case Bound(registry) => Outcome(Redirect("/login", Some(CLEARED_COOKIE)), Bound(registry - {id})))
      case None => Outcome(Redirect("/login", Some(CLEARED_COOKIE)), imports.sessions)
  }

  /** As written, no login through the controller ever reaches `/admin`. */
  lemma ImportedLoginNeverAdmits(rows: Fetch<seq<AdminRow>>, password: string, pin: string,
                                 compare: Compare, token: Token, now: int)
    ensures Login(AS_IMPORTED.sessions, rows, password, pin, compare, token, now).response
            == Redirect("/login?error=1", None)
  {
  }

  /** The concrete discrepancy: an admin row whose hashes match "p1" and "1234",
      which index.js admits, is refused by the controller as written. */
  lemma ImportedLoginRefusesValidAdmin()
    ensures var compare: Compare := (plain, hash) => Fetched(plain == hash);
            var rows := Fetched([AdminRow(1, "p1", "1234")]);
            Authenticator.Login(map[], rows, "p1", "1234", compare, "t", 0).response.location == "/admin" &&
            Login(AS_IMPORTED.sessions, rows, "p1", "1234", compare, "t", 0).response.location == "/login?error=1"
  {
  }

  /** As written, every logout through the controller fails with status 500. */
  lemma ImportedLogoutAlwaysFails(cookieHeader: Option<string>, decode: string -> string)
    ensures Logout(AS_IMPORTED, cookieHeader, decode).response == Uncaught
  {
  }

  /** Wired to the shared registry, the controller's login and logout behave
      as those of index.js, on every input. */
  lemma WiredMatchesServer(sessions: Registry, rows: Fetch<seq<AdminRow>>, password: string, pin: string,
                           compare: Compare, token: Token, now: int,
                           cookieHeader: Option<string>, decode: string -> string)
    ensures var s := Authenticator.Login(sessions, rows, password, pin, compare, token, now);
            Login(Wired(sessions).sessions, rows, password, pin, compare, token, now) == Outcome(s.response, Bound(s.sessions))
    ensures var s := Sessions.Logout(sessions, cookieHeader, decode);
            Logout(Wired(sessions), cookieHeader, decode) == Outcome(s.response, Bound(s.sessions))
  {
  }
}

=== FILE: authenticator.dfy ===
/** The admin authenticator: two-factor login (password and PIN), the
    stand-alone password check, and changing the password or the PIN. The
    handlers read the first row of `admin_config`; the query result, bcrypt's
    `compare` and `hash`, the `UPDATE` outcome, the fresh token and the clock
    are all inputs. A rejected promise is a `Threw` input. */
module Authenticator {
  import opened Values
  import opened Http
  import opened Sessions

  /** The columns of an `admin_config` row that the handlers use. */
  datatype AdminRow = AdminRow(id: int, passwordHash: string, pinHash: string)

  /** `bcrypt.compare(plain, hash)` */
  type Compare = (string, string) -> Fetch<bool>

  /** `bcrypt.hash(plain, 10)` */
  type Hasher = string -> Fetch<string>

  /** `Max-Age` of the cookie set at login, in seconds: one day, although the
      server forgets an idle session after `SESSION_TIMEOUT` (30 minutes). */
  const LOGIN_COOKIE_MAX_AGE: int := 86400

  /** `SELECT * FROM admin_config LIMIT 1` over a table given as a sequence. */
  function SelectFirst(table: seq<AdminRow>): (rows: seq<AdminRow>)
    ensures |rows| == if |table| == 0 then 0 else 1
    ensures |rows| == 1 ==> rows[0] == table[0]
  {
    if |table| == 0 then [] else table[..1]
  }

  predicate Matches(compare: Compare, plain: string, hash: string)
  {
    compare(plain, hash) == Fetched(true)
  }

  /** The password matches the first admin row, and neither the query nor the
      comparison threw. */
  predicate PasswordMatches(rows: Fetch<seq<AdminRow>>, password: string, compare: Compare)
  {
    rows.Fetched? && |rows.value| > 0 && Matches(compare, password, rows.value[0].passwordHash)
  }

  /** Both factors match the first admin row, and nothing threw. */
  predicate Accepts(rows: Fetch<seq<AdminRow>>, password: string, pin: string, compare: Compare)
  {
    PasswordMatches(rows, password, compare) && Matches(compare, pin, rows.value[0].pinHash)
  }

  /** POST `/login`: a session `token -> now` is added, and the browser sent to
      `/admin` with the session cookie, exactly when both the password and the
      PIN match. No admin row, a mismatch of either factor, or a thrown error
      all give the same `/login?error=1` and leave the registry as it was. */
  function Login(sessions: Registry, rows: Fetch<seq<AdminRow>>, password: string, pin: string,
                 compare: Compare, token: Token, now: int): (s: Step)
    ensures Accepts(rows, password, pin, compare) ==>
              s.response == Redirect("/admin", Some(SessionCookie(token, LOGIN_COOKIE_MAX_AGE))) &&
              token in s.sessions && s.sessions[token] == now && AgreeExcept(sessions, s.sessions, token)
    ensures !Accepts(rows, password, pin, compare) ==> s == Step(Redirect("/login?error=1", None), sessions)
  {
    var rejected := Step(Redirect("/login?error=1", None), sessions);
    match rows
    case Threw(_) => rejected
    case Fetched(admins) =>
      if |admins| == 0 then rejected
      else
        match compare(password, admins[0].passwordHash)
        case Threw(_) => rejected
        case Fetched(passwordOk) =>
          match compare(pin, admins[0].pinHash)
          case Threw(_) => rejected
          case Fetched(pinOk) =>
            if passwordOk && pinOk then
              Step(Redirect("/admin", Some(SessionCookie(token, LOGIN_COOKIE_MAX_AGE))), sessions[token := now])
            else rejected
  }

  /** POST `/api/validate-password`: `success` is true exactly when an admin row
      exists and the password matches it; a thrown error reads as `false`.
      The handler has no access to the registry, so it never creates a session. */
  function ValidatePassword(rows: Fetch<seq<AdminRow>>, password: string, compare: Compare): (r: Response)
    ensures r == Json(200, Ack(PasswordMatches(rows, password, compare), None))
  {
    var rejected := Json(200, Ack(false, None));
    match rows
    case Threw(_) => rejected
    case Fetched(admins) =>
      if |admins| == 0 then rejected
      else
        match compare(password, admins[0].passwordHash)
        case Threw(_) => rejected
        case Fetched(ok) => if ok then Json(200, Ack(true, None)) else rejected
  }

  /** The password check is the first step of login: every accepted login
      passes it. */
  lemma LoginImpliesValidPassword(rows: Fetch<seq<AdminRow>>, password: string, pin: string, compare: Compare,
                                  sessions: Registry, token: Token, now: int)
    requires Login(sessions, rows, password, pin, compare, token, now).response.Redirect?
    requires Login(sessions, rows, password, pin, compare, token, now).response.location == "/admin"
    ensures ValidatePassword(rows, password, compare) == Json(200, Ack(true, None))
  {
  }

  /** Which secret a change operation replaces. */
  datatype Secret = Password | Pin

  function Stored(kind: Secret, row: AdminRow): string
  {
    match kind
    case Password => row.passwordHash
    case Pin => row.pinHash
  }

  function WrongOldMessage(kind: Secret): string
  {
    match kind
    case Password => "Password lama salah"
    case Pin => "PIN lama salah"
  }

  /** `UPDATE admin_config SET <password_hash | pin_hash> = hash WHERE id = id` */
  datatype Write = Write(kind: Secret, id: int, hash: string)

  /** A response and the update that reached the database, if any. */
  datatype Change = Change(response: Response, write: Option<Write>)

  /** Some step of a change threw after the query returned a row: the old-secret
      comparison, or, once it matched, the hashing or the update. */
  predicate ChangeThrew(kind: Secret, rows: Fetch<seq<AdminRow>>, oldSecret: string, newSecret: string,
                        compare: Compare, hash: Hasher, update: Fetch<int>)
  {
    rows.Threw? ||
    (|rows.value| > 0 &&
     var verdict := compare(oldSecret, Stored(kind, rows.value[0]));
     verdict.Threw? || (verdict.value && (hash(newSecret).Threw? || update.Threw?)))
  }

  /** POST `/api/change-password` (`kind == Password`) and `/api/change-pin`
      (`kind == Pin`): the new secret's hash is written to the row's own column,
      and only there, exactly when the old secret matches and nothing threw.
      No row gives 404 'Admin config not found'; a wrong old secret gives its
      own message with no write; a thrown error gives 500 with
      `success: false` and no write. */
  function ChangeSecret(kind: Secret, rows: Fetch<seq<AdminRow>>, oldSecret: string, newSecret: string,
                        compare: Compare, hash: Hasher, update: Fetch<int>): (c: Change)
    ensures c.write.Some? <==>
              rows.Fetched? && |rows.value| > 0 && Matches(compare, oldSecret, Stored(kind, rows.value[0])) &&
              hash(newSecret).Fetched? && update.Fetched?
    ensures c.write.Some? ==>
              c.write.value == Write(kind, rows.value[0].id, hash(newSecret).value) &&
              c.response == Json(200, Ack(true, None))
    ensures rows.Fetched? && |rows.value| == 0 ==>
              c == Change(Json(404, Ack(false, Some("Admin config not found"))), None)
    ensures rows.Fetched? && |rows.value| > 0 && compare(oldSecret, Stored(kind, rows.value[0])) == Fetched(false) ==>
              c == Change(Json(200, Ack(false, Some(WrongOldMessage(kind)))), None)
    ensures (c.response.Json? && c.response.status == 500) <==> ChangeThrew(kind, rows, oldSecret, newSecret, compare, hash, update)
    ensures c.response.Json? && c.response.status == 500 ==> c.response.body.Ack? && !c.response.body.success
  {
    match rows
    case Threw(m) => Change(Json(500, Ack(false, Some(m))), None)
    case Fetched(admins) =>
      if |admins| == 0 then Change(Json(404, Ack(false, Some("Admin config not found"))), None)
      else
        var admin := admins[0];
        match compare(oldSecret, Stored(kind, admin))
        case Threw(m) => Change(Json(500, Ack(false, Some(m))), None)
        case Fetched(ok) =>
          if !ok then Change(Json(200, Ack(false, Some(WrongOldMessage(kind)))), None)
          else
            match hash(newSecret)
            case Threw(m) => Change(Json(500, Ack(false, Some(m))), None)
            case Fetched(h) =>
              match update
              case Threw(m) => Change(Json(500, Ack(false, Some(m))), None)
              case Fetched(_) => Change(Json(200, Ack(true, None)), Some(Write(kind, admin.id, h)))
  }

  function ApplyRow(w: Write, row: AdminRow): AdminRow
  {
    if row.id != w.id then row
    else match w.kind
      case Password => row.(passwordHash := w.hash)
      case Pin => row.(pinHash := w.hash)
  }

  /** The table after an update: every row with the written id has the new hash
      in the written column and keeps its other column; every other row is
      unchanged. */
  function ApplyWrite(table: seq<AdminRow>, w: Write): (t: seq<AdminRow>)
    ensures |t| == |table|
    ensures forall i :: 0 <= i < |table| && table[i].id != w.id ==> t[i] == table[i]
    ensures forall i :: 0 <= i < |table| && table[i].id == w.id ==>
              t[i].id == w.id && Stored(w.kind, t[i]) == w.hash &&
              (w.kind == Password ==> t[i].pinHash == table[i].pinHash) &&
              (w.kind == Pin ==> t[i].passwordHash == table[i].passwordHash)
  {
    seq(|table|, i requires 0 <= i < |table| => ApplyRow(w, table[i]))
  }

  /** bcrypt as the model needs it: a hash produced from `p` is matched by `p`
      and by nothing else. */
  ghost predicate Faithful(compare: Compare, hash: Hasher)
  {
    forall p, q, h {:trigger hash(p), compare(q, h)} :: hash(p) == Fetched(h) ==> compare(q, h) == Fetched(p == q)
  }

  /** After a successful password change, the new password passes the
      password check and the old one, if different, no longer does. */
  lemma ChangePasswordThenValidate(table: seq<AdminRow>, oldSecret: string, newSecret: string,
                                  compare: Compare, hash: Hasher, update: Fetch<int>)
    requires Faithful(compare, hash)
    requires ChangeSecret(Password, Fetched(SelectFirst(table)), oldSecret, newSecret, compare, hash, update).write.Some?
    ensures var w := ChangeSecret(Password, Fetched(SelectFirst(table)), oldSecret, newSecret, compare, hash, update).write.value;
            var rows' := Fetched(SelectFirst(ApplyWrite(table, w)));
            ValidatePassword(rows', newSecret, compare) == Json(200, Ack(true, None)) &&
            (oldSecret != newSecret ==> ValidatePassword(rows', oldSecret, compare) == Json(200, Ack(false, None)))
  {
    var w := ChangeSecret(Password, Fetched(SelectFirst(table)), oldSecret, newSecret, compare, hash, update).write.value;
    var h := hash(newSecret).value;
    assert w.hash == h && w.id == table[0].id;
    var t := ApplyWrite(table, w);
    assert t[0].passwordHash == h;
    assert compare(newSecret, h) == Fetched(true);
    assert compare(oldSecret, h) == Fetched(newSecret == oldSecret);
  }

  /** After a successful PIN change, login with the unchanged password succeeds
      with the new PIN and, if it differs, fails with the old one. */
  lemma ChangePinThenLogin(table: seq<AdminRow>, password: string, oldSecret: string, newSecret: string,
                          compare: Compare, hash: Hasher, update: Fetch<int>)
    requires Faithful(compare, hash)
    requires PasswordMatches(Fetched(SelectFirst(table)), password, compare)
    requires ChangeSecret(Pin, Fetched(SelectFirst(table)), oldSecret, newSecret, compare, hash, update).write.Some?
    ensures var w := ChangeSecret(Pin, Fetched(SelectFirst(table)), oldSecret, newSecret, compare, hash, update).write.value;
            var rows' := Fetched(SelectFirst(ApplyWrite(table, w)));
            Accepts(rows', password, newSecret, compare) && (oldSecret != newSecret ==> !Accepts(rows', password, oldSecret, compare))
  {
    var w := ChangeSecret(Pin, Fetched(SelectFirst(table)), oldSecret, newSecret, compare, hash, update).write.value;
    var h := hash(newSecret).value;
    var t := ApplyWrite(table, w);
    assert t[0].pinHash == h && t[0].passwordHash == table[0].passwordHash;
    assert compare(newSecret, h) == Fetched(true);
    assert compare(oldSecret, h) == Fetched(newSecret == oldSecret);
  }

  /** The result of a change route: its response, the registry the guard left,
      and the update that reached the database. */
  datatype GuardedChange = GuardedChange(response: Response, sessions: Registry, write: Option<Write>)

  /** The change routes of index.js run `requireAuth` first: the handler, and so
      any write, is reached only with a live session. */
  function ProtectedChange(sessions: Registry, cookieHeader: Option<string>, decode: string -> string, now: int,
                           kind: Secret, rows: Fetch<seq<AdminRow>>, oldSecret: string, newSecret: string,
                           compare: Compare, hash: Hasher, update: Fetch<int>): (g: GuardedChange)
    ensures g.write.Some? ==>
              var id := SessionId(cookieHeader, decode);
              id.Some? && Live(sessions, id.value, now) && id.value in g.sessions && g.sessions[id.value] == now
    ensures !RequireAuth(sessions, cookieHeader, decode, now).response.Next? ==>
              g == GuardedChange(RequireAuth(sessions, cookieHeader, decode, now).response,
                                 RequireAuth(sessions, cookieHeader, decode, now).sessions, None)
    ensures RequireAuth(sessions, cookieHeader, decode, now).response.Next? ==>
              var c := ChangeSecret(kind, rows, oldSecret, newSecret, compare, hash, update);
              g.response == c.response && g.write == c.write
  {
    var guard := RequireAuth(sessions, cookieHeader, decode, now);
    if guard.response.Next? then
      var c := ChangeSecret(kind, rows, oldSecret, newSecret, compare, hash, update);
      GuardedChange(c.response, guard.sessions, c.write)
    else
      GuardedChange(guard.response, guard.sessions, None)
  }

  /** Login, use, logout, use: a session created at `t0` admits the browser's
      cookie at `t1` within the timeout and refreshes it; after logout the same
      cookie is sent to `/login`. */
  lemma {:induction false} SessionLifecycle(sessions: Registry, rows: Fetch<seq<AdminRow>>, password: string, pin: string,
                                            compare: Compare, token: Token, decode: string -> string,
                                            t0: int, t1: int, t2: int)
    requires Accepts(rows, password, pin, compare)
    requires token != "" && ';' !in token && decode(token) == token
    requires t1 - t0 <= SESSION_TIMEOUT
    ensures var cookie := Some("session_id=" + token);
            var s1 := Login(sessions, rows, password, pin, compare, token, t0);
            var s2 := RequireAuth(s1.sessions, cookie, decode, t1);
            var s3 := Logout(s2.sessions, cookie, decode);
            s2.response == Next && s2.sessions[token] == t1 &&
            token !in s3.sessions &&
            RequireAuth(s3.sessions, cookie, decode, t2).response == Redirect("/login", None)
  {
    var cookie := Some("session_id=" + token);
    SessionIdOfCookie(token, decode);
    var s1 := Login(sessions, rows, password, pin, compare, token, t0);
    assert s1.sessions[token] == t0;
    assert Live(s1.sessions, token, t1);
    var s2 := RequireAuth(s1.sessions, cookie, decode, t1);
    assert s2.response == Next;
    var s3 := Logout(s2.sessions, cookie, decode);
    assert token !in s3.sessions;
  }
}

=== FILE: cookies.dfy ===
/** The request `Cookie` header parser of index.js: the header is split on `;`,
    each piece on `=`; the first part, trimmed, is the key and the rest, joined
    again with `=` and passed through `decodeURI`, is the value. A later piece
    with the same key overwrites an earlier one. The jar is a plain object, so
    a `__proto__` key reaches the prototype setter, which ignores a string
    value and stores nothing. `decodeURI` is a parameter. */
module Cookies {
  import opened Values
  import opened Strings

  type Jar = map<string, string>

  /** `parts.shift().trim()` for `parts = piece.split('=')`. */
  function CookieKey(piece: string): string
  {
    Trim(Split(piece, '=')[0])
  }

  /** `parts.join('=')` after the shift: the raw value, before decoding. */
  function CookieValue(piece: string): string
  {
    Join(Split(piece, '=')[1..], '=')
  }

  /** The key is the trimmed text before the first `=` and the value is
      everything after it; a piece without `=` has an empty value. */
  lemma CookiePieceParts(piece: string)
    ensures '=' in piece ==>
              var i := FirstIndex(piece, '=');
              CookieKey(piece) == Trim(piece[..i]) && CookieValue(piece) == piece[i + 1..]
    ensures '=' !in piece ==> CookieKey(piece) == Trim(piece) && CookieValue(piece) == ""
  {
    SplitAtFirst(piece, '=');
  }

  /** Each piece's key and decoded value, in order. */
  function Entries(pieces: seq<string>, decode: string -> string): (es: seq<(string, string)>)
    ensures |es| == |pieces|
    ensures forall i :: 0 <= i < |pieces| ==> es[i] == (CookieKey(pieces[i]), decode(CookieValue(pieces[i])))
  {
    seq(|pieces|, i requires 0 <= i < |pieces| => (CookieKey(pieces[i]), decode(CookieValue(pieces[i]))))
  }

  /** The one key an assignment on a plain object does not store a string under. */
  const PROTO_KEY: string := "__proto__"

  /** The `forEach` over the entries, in order: each one is written into the
      jar, except under `__proto__`. */
  function Collect(es: seq<(string, string)>): Jar
    decreases |es|
  {
    if |es| == 0 then map[]
    else if es[|es| - 1].0 == PROTO_KEY then Collect(es[..|es| - 1])
    else Collect(es[..|es| - 1])[es[|es| - 1].0 := es[|es| - 1].1]
  }

  /** `parseCookies(request)`: no header, or an empty one, gives the empty jar. */
  function Parse(header: Option<string>, decode: string -> string): (jar: Jar)
    ensures !Truthy(header) ==> jar == map[]
  {
    if Truthy(header) then Collect(Entries(Split(header.value, ';'), decode)) else map[]
  }

  /** Entry `j` is the last entry whose key is `k`. */
  ghost predicate LastWithKey(es: seq<(string, string)>, k: string, j: int)
  {
    0 <= j < |es| && es[j].0 == k &&
    forall j' :: j < j' < |es| ==> es[j'].0 != k
  }

  /** A key other than `__proto__` is in the jar exactly when some entry has
      it; `__proto__` never is. */
  lemma {:induction false} CollectKeys(es: seq<(string, string)>, k: string)
    ensures k in Collect(es) <==> k != PROTO_KEY && exists j :: 0 <= j < |es| && es[j].0 == k
    decreases |es|
  {
    if |es| > 0 {
      var n := |es| - 1;
      var init := es[..n];
      CollectKeys(init, k);
      if k in Collect(init) {
        var j :| 0 <= j < |init| && init[j].0 == k;
        assert es[j] == init[j];
      }
      if exists j :: 0 <= j < |es| && es[j].0 == k {
        var j :| 0 <= j < |es| && es[j].0 == k;
        if j < n {
          assert init[j] == es[j];
        }
      }
    }
  }

  /** The value of a key comes from the last entry that has it. */
  lemma {:induction false} CollectLastWins(es: seq<(string, string)>, k: string, j: int)
    requires LastWithKey(es, k, j)
    ensures k != PROTO_KEY ==> k in Collect(es) && Collect(es)[k] == es[j].1
    decreases |es|
  {
    var n := |es| - 1;
    var init := es[..n];
    if j < n {
      assert es[n].0 != k;
      assert init[j] == es[j];
      assert LastWithKey(init, k, j);
      CollectLastWins(init, k, j);
    }
  }

  /** `parseCookies` on a present header: key `k` other than `__proto__` is
      in the jar iff some `;`-separated piece has key `k`, and then the last
      such piece gives its decoded value. */
  lemma ParseLastWins(header: string, decode: string -> string, k: string)
    requires header != ""
    ensures var pieces := Split(header, ';');
            k in Parse(Some(header), decode) <==>
            k != PROTO_KEY && exists j :: 0 <= j < |pieces| && CookieKey(pieces[j]) == k
    ensures var es := Entries(Split(header, ';'), decode);
            forall j :: k != PROTO_KEY && LastWithKey(es, k, j) ==>
              k in Parse(Some(header), decode) &&
              Parse(Some(header), decode)[k] == decode(CookieValue(Split(header, ';')[j]))
  {
    var pieces := Split(header, ';');
    var es := Entries(pieces, decode);
    CollectKeys(es, k);
    forall j | k != PROTO_KEY && LastWithKey(es, k, j)
      ensures k in Collect(es) && Collect(es)[k] == decode(CookieValue(pieces[j]))
    {
      CollectLastWins(es, k, j);
    }
  }

  lemma TrimSessionName()
    ensures Trim("session_id") == "session_id"
  {
    var name := "session_id";
    assert name[0] == 's' && name[|name| - 1] == 'd';
    assert !IsSpace('s') && !IsSpace('d');
  }

  /** The piece `session_id=<token>` has key `session_id` and value `<token>`. */
  lemma SessionPiece(token: string)
    ensures CookieKey("session_id=" + token) == "session_id"
    ensures CookieValue("session_id=" + token) == token
  {
    var piece := "session_id=" + token;
    assert piece == "session_id" + ['='] + token;
    FirstIndexAfterPiece("session_id", '=', token);
    assert FirstIndex(piece, '=') == 10;
    CookiePieceParts(piece);
    assert piece[..10] == "session_id";
    assert piece[11..] == token;
    TrimSessionName();
  }

  lemma NoSemicolon(token: string)
    requires ';' !in token
    ensures Split("session_id=" + token, ';') == ["session_id=" + token]
  {
    var piece := "session_id=" + token;
    forall i | 0 <= i < |piece| ensures piece[i] != ';' {
      if i >= 11 { assert piece[i] == token[i - 11]; }
    }
    SplitAtFirst(piece, ';');
  }

  /** A header carrying one session cookie, as the browser sends it back, parses
      to a jar that maps `session_id` to the decoded token. */
  lemma SessionCookieRoundTrip(token: string, decode: string -> string)
    requires ';' !in token
    ensures "session_id" in Parse(Some("session_id=" + token), decode)
    ensures Parse(Some("session_id=" + token), decode)["session_id"] == decode(token)
  {
    var piece := "session_id=" + token;
    NoSemicolon(token);
    SessionPiece(token);
    var es := Entries([piece], decode);
    assert es == [("session_id", decode(token))];
    assert Collect(es) == Collect([])["session_id" := decode(token)];
  }
}

=== FILE: gallery.dfy ===
/** The public gallery script (public/js/index.js): how it turns a stored
    image path into the address it shows, and the Cloudinary delivery
    parameters it splices into an upload URL. `encodeURIComponent` is a
    parameter. */
module Gallery {
  import opened Values
  import opened Strings
  import opened Http
  import Admin
  import AdminUi

  /** The `mode` argument: `'thumb'`, `'full'`, or anything else. */
  datatype Mode = Thumb | Full | Other

  const UPLOAD_SEGMENT: string := "/upload/"
  const DEFAULT_PARAMS: string := "f_auto,q_auto"
  const THUMB_PARAMS: string := "f_auto,q_auto,w_600,h_750,c_fill"

  /** The text overlay of the full-size view: the watermark text, URI-encoded,
      in white at 30% opacity in the bottom-right corner. */
  function WatermarkParams(wm: string, encode: string -> string): string
  {
    "f_auto,q_auto,l_text:Arial_20_bold:" + encode(wm) + ",co_white,o_30,g_south_east,x_10,y_10"
  }

  /** The transformation chosen for a mode: thumbnails are cropped to 600x750,
      full views carry the watermark when there is watermark text, and
      everything else only gets automatic format and quality. */
  function Params(mode: Mode, wmText: Option<string>, encode: string -> string): (p: string)
    ensures StartsWith(p, DEFAULT_PARAMS)
    ensures mode == Thumb ==> p == THUMB_PARAMS
    ensures mode == Full && Truthy(wmText) ==> p == WatermarkParams(wmText.value, encode)
    ensures mode == Other || (mode == Full && !Truthy(wmText)) ==> p == DEFAULT_PARAMS
  {
    match mode
    case Thumb =>
      assert THUMB_PARAMS[..13] == DEFAULT_PARAMS;
      THUMB_PARAMS
    case Full =>
      if Truthy(wmText) then
        var p := WatermarkParams(wmText.value, encode);
        assert p[..13] == DEFAULT_PARAMS;
        p
      else DEFAULT_PARAMS
    case Other => DEFAULT_PARAMS
  }

  /** `getCloudinaryUrl(url, mode)`: a missing URL, or one that is not on
      `cloudinary.com`, is returned unchanged; otherwise the parameters are
      inserted after the first `/upload/`, and only there. */
  function CloudinaryUrl(url: Option<string>, mode: Mode, wmText: Option<string>, encode: string -> string): (r: Option<string>)
    ensures !Truthy(url) || !Contains(url.value, "cloudinary.com") ==> r == url
    ensures Truthy(url) && !Contains(url.value, UPLOAD_SEGMENT) ==> r == url
    ensures Truthy(url) && Contains(url.value, "cloudinary.com") ==>
              r == Some(ReplaceFirst(url.value, UPLOAD_SEGMENT, UPLOAD_SEGMENT + Params(mode, wmText, encode) + "/"))
  {
    if !Truthy(url) || !Contains(url.value, "cloudinary.com") then url
    else Some(ReplaceFirst(url.value, UPLOAD_SEGMENT, UPLOAD_SEGMENT + Params(mode, wmText, encode) + "/"))
  }

  /** Inserting a parameter segment after the first `/upload/` moves no
      earlier text, so the first `/upload/<p>/` of the result is the one
      inserted, and replacing it by `/upload/` gives the original back. */
  lemma {:induction false} InsertThenStrip(u: string, p: string)
    requires Contains(u, UPLOAD_SEGMENT)
    ensures var r := ReplaceFirst(u, UPLOAD_SEGMENT, UPLOAD_SEGMENT + p + "/");
            ReplaceFirst(r, UPLOAD_SEGMENT + p + "/", UPLOAD_SEGMENT) == u &&
            |r| == |u| + |p| + 1
  {
    var i := IndexOf(u, UPLOAD_SEGMENT).value;
    var m := UPLOAD_SEGMENT + p + "/";
    var r := u[..i] + m + u[i + 8..];
    assert r == ReplaceFirst(u, UPLOAD_SEGMENT, m);
    assert r[i..i + |m|] == m;
    assert r[..i + 8] == u[..i + 8] by {
      assert u[..i + 8] == u[..i] + u[i..i + 8];
      assert r[..i + 8] == u[..i] + m[..8];
    }
    forall j | 0 <= j < i
      ensures !OccursAt(r, m, j)
    {
      assert !OccursAt(u, UPLOAD_SEGMENT, j);
      assert u[j..j + 8] == r[j..j + 8];
      assert m[..8] == UPLOAD_SEGMENT;
    }
    IndexOfIs(r, m, i);
    assert r[i + |m|..] == u[i + 8..];
    assert r[..i] == u[..i];
    assert u == u[..i] + UPLOAD_SEGMENT + u[i + 8..];
  }

  /** The delivery URL keeps everything the stored one says: removing the
      inserted parameter segment recovers the stored URL, for every mode. */
  lemma StripParams(url: string, mode: Mode, wmText: Option<string>, encode: string -> string)
    requires url != "" && Contains(url, "cloudinary.com") && Contains(url, UPLOAD_SEGMENT)
    ensures var r := CloudinaryUrl(Some(url), mode, wmText, encode);
            r.Some? && r.value != url &&
            ReplaceFirst(r.value, UPLOAD_SEGMENT + Params(mode, wmText, encode) + "/", UPLOAD_SEGMENT) == url
  {
    InsertThenStrip(url, Params(mode, wmText, encode));
  }

  /** With no watermark text loaded the full view is the plain delivery URL. */
  lemma NoWatermarkWithoutText(url: Option<string>, wmText: Option<string>, encode: string -> string)
    requires !Truthy(wmText)
    ensures CloudinaryUrl(url, Full, wmText, encode) == CloudinaryUrl(url, Other, wmText, encode)
  {
  }

  /** `globalWmText` after `loadWmConfig`: the `wm_text` of the response body,
      and missing when the body has none (the error answer). */
  function LoadedWmText(r: Response): (t: Option<string>)
    ensures r.Json? && r.body.WmConfig? ==> t == Some(r.body.wmText)
    ensures !(r.Json? && r.body.WmConfig?) ==> !Truthy(t)
  {
    if r.Json? && r.body.WmConfig? then Some(r.body.wmText) else None
  }

  /** The full view shows the administrator's stored watermark text, and none
      when it is empty, missing or the configuration could not be read. */
  lemma FullViewUsesStoredText(rows: Fetch<seq<Option<string>>>, url: string, encode: string -> string)
    requires url != "" && Contains(url, "cloudinary.com")
    ensures var wm := LoadedWmText(Admin.GetWmConfig(rows));
            Truthy(wm) <==> rows.Fetched? && |rows.value| > 0 && Truthy(rows.value[0])
    ensures var wm := LoadedWmText(Admin.GetWmConfig(rows));
            Truthy(wm) ==>
              CloudinaryUrl(Some(url), Full, wm, encode) ==
              Some(ReplaceFirst(url, UPLOAD_SEGMENT, UPLOAD_SEGMENT + WatermarkParams(rows.value[0].value, encode) + "/"))
  {
  }

  /** The `rawPath` of a gallery tile: an `http` path is used as it is,
      anything else is served from `/images/<folder>/`. A missing
      `image_path` has no `startsWith`, so the call throws: `None`. */
  function RawPath(imagePath: Option<string>, folder: string): (r: Option<string>)
    ensures r.None? <==> imagePath.None?
    ensures imagePath.Some? && StartsWith(imagePath.value, "http") ==> r == imagePath
    ensures imagePath.Some? && !StartsWith(imagePath.value, "http") ==>
              r == Some("/images/" + folder + "/" + imagePath.value)
  {
    match imagePath
    case None => None
    case Some(p) => if StartsWith(p, "http") then Some(p) else Some("/images/" + folder + "/" + p)
  }

  /** For a non-empty path the public gallery and the admin panel show the
      same image; for an empty one the panel shows its placeholder instead. */
  lemma RawPathMatchesAdmin(imagePath: string, folder: string)
    ensures imagePath != "" ==> RawPath(Some(imagePath), folder) == Some(AdminUi.GetImgSrc(Some(imagePath), folder))
    ensures imagePath == "" ==> AdminUi.GetImgSrc(Some(imagePath), folder) == AdminUi.PLACEHOLDER_IMAGE
  {
  }

  /** The columns of a gallery row that a tile shows. */
  datatype GridItem = GridItem(imagePath: Option<string>, name: Option<string>, title: Option<string>)

  /** One `<img>` of the grid: its thumbnail source, its `alt` text and the
      path the full view opens. */
  datatype Tile = Tile(src: string, alt: string, viewPath: string)

  function TileOf(item: GridItem, folder: string, encode: string -> string): Tile
    requires item.imagePath.Some?
  {
    var raw := RawPath(item.imagePath, folder).value;
    // thumbnails ignore the watermark text, so none is passed
    Tile(CloudinaryUrl(Some(raw), Thumb, None, encode).value, AltText(item.name, item.title), raw)
  }

  /** `loadData` after the fetch: the grid's new tiles, or `None` when the
      grid is left as it was. An empty list leaves it alone, and so does a
      single row without an `image_path`: its `startsWith` throws inside the
      `map`, the `catch` only logs, and no tile of the grid is rendered. */
  function RenderGrid(items: seq<GridItem>, folder: string, encode: string -> string): (g: Option<seq<Tile>>)
    ensures g.Some? <==> |items| > 0 && forall i :: 0 <= i < |items| ==> items[i].imagePath.Some?
    ensures g.Some? ==> |g.value| == |items|
    ensures g.Some? ==> forall i :: 0 <= i < |items| ==>
              Some(g.value[i].viewPath) == RawPath(items[i].imagePath, folder) &&
              g.value[i].alt == AltText(items[i].name, items[i].title) &&
              Some(g.value[i].src) == CloudinaryUrl(Some(g.value[i].viewPath), Thumb, None, encode)
  {
    if |items| > 0 && forall i :: 0 <= i < |items| ==> items[i].imagePath.Some? then
      Some(seq(|items|, i requires 0 <= i < |items| => TileOf(items[i], folder, encode)))
    else None
  }

  /** A thumbnail always leads back to its stored image: stripping the
      thumbnail parameters from a rewritten Cloudinary source gives the path
      the full view opens. */
  lemma TileSourceStripsToView(items: seq<GridItem>, folder: string, encode: string -> string, i: int)
    requires RenderGrid(items, folder, encode).Some? && 0 <= i < |items|
    requires var t := RenderGrid(items, folder, encode).value[i];
             Contains(t.viewPath, "cloudinary.com") && Contains(t.viewPath, UPLOAD_SEGMENT)
    ensures var t := RenderGrid(items, folder, encode).value[i];
            ReplaceFirst(t.src, UPLOAD_SEGMENT + THUMB_PARAMS + "/", UPLOAD_SEGMENT) == t.viewPath
  {
    var t := RenderGrid(items, folder, encode).value[i];
    InsertThenStrip(t.viewPath, THUMB_PARAMS);
  }

  /** The markup that follows the opening quote of a tile's `alt="`: the alt
      text as interpolated, the closing quote and the `onclick` handler. */
  function AfterAltQuote(t: Tile): string
  {
    t.alt + "\" onclick=\"openView('" + t.viewPath + "', this.alt)\">"
  }

  /** The value an HTML parser reads for a double-quoted attribute, given the
      markup after its opening quote: the text up to the next `"`, with the
      five entities `escapeHtml` produces decoded. */
  function AttributeValue(afterQuote: string): (v: string)
    ensures IndexOf(afterQuote, "\"").None? ==> v == AdminUi.Unescape(afterQuote)
    ensures IndexOf(afterQuote, "\"").Some? ==>
              v == AdminUi.Unescape(afterQuote[..IndexOf(afterQuote, "\"").value])
  {
    match IndexOf(afterQuote, "\"")
    case None => AdminUi.Unescape(afterQuote)
    case Some(i) => AdminUi.Unescape(afterQuote[..i])
  }

  /** As written, a name containing `"` ends the `alt` attribute early: the
      tile of a work named `5" print` reads `5`. */
  lemma UnescapedAltIsCut(encode: string -> string)
    ensures var g := RenderGrid([GridItem(Some("a.jpg"), Some("5\" print"), None)], "personals", encode);
            g.Some? && g.value[0].alt == "5\" print" &&
            AttributeValue(AfterAltQuote(g.value[0])) == "5"
  {
    var g := RenderGrid([GridItem(Some("a.jpg"), Some("5\" print"), None)], "personals", encode);
    var m := AfterAltQuote(g.value[0]);
    assert m[..2] == "5\"";
    assert OccursAt(m, "\"", 1);
    assert !OccursAt(m, "\"", 0);
    IndexOfIs(m, "\"", 1);
    assert m[..1] == "5";
    AdminUi.UnescapePlain('5', "");
  }

  /** With the alt text escaped as the admin panel escapes it, the browser
      reads back exactly the text, whatever follows the closing quote. */
  lemma EscapedAltReadsBack(alt: string, rest: string)
    ensures AttributeValue(AdminUi.Escape(alt) + "\"" + rest) == alt
  {
    var e := AdminUi.Escape(alt);
    var m := e + "\"" + rest;
    assert m[..|e|] == e;
    assert OccursAt(m, "\"", |e|) by { assert m[|e|..|e| + 1] == "\""; }
    forall j | 0 <= j < |e|
      ensures !OccursAt(m, "\"", j)
    {
      assert m[j] == e[j];
    }
    IndexOfIs(m, "\"", |e|);
    AdminUi.UnescapeEscape(alt);
  }

  /** The tile's `alt` text: `name || title || 'Untitled'`, never empty. */
  function AltText(name: Option<string>, title: Option<string>): (a: string)
    ensures a != ""
    ensures Truthy(name) ==> a == name.value
    ensures !Truthy(name) && Truthy(title) ==> a == title.value
    ensures !Truthy(name) && !Truthy(title) ==> a == "Untitled"
  {
    if Truthy(name) then name.value else if Truthy(title) then title.value else "Untitled"
  }
}

=== FILE: http.dfy ===
/** The HTTP-facing values the server produces: the session cookie it sets and
    the responses of its middleware and route handlers. */
module Http {
  import opened Values

  /** The name of the cookie that carries a session token. */
  const SESSION_COOKIE: string := "session_id"

  /** A `Set-Cookie` header for the session cookie:
      `session_id=<value>; HttpOnly; Path=/; Max-Age=<maxAge>`. */
  datatype SetCookie = SessionCookie(value: string, maxAge: int)

  /** `session_id=; HttpOnly; Path=/; Max-Age=0`, which makes the browser drop the cookie. */
  const CLEARED_COOKIE: SetCookie := SessionCookie("", 0)

  /** The JSON bodies the handlers send. */
  datatype Body =
    | Ack(success: bool, message: Option<string>)  // { success, message? }
    | Deleted(count: nat)                           // { success: true, count }
    | Failure(error: string)                        // { error }
    | WmConfig(wmText: string)                      // { wm_text }

  datatype Response =
    | Next                                                  // control passes to the next handler
    | Redirect(location: string, setCookie: Option<SetCookie>)
    | Json(status: int, body: Body)
    | Uncaught  // a synchronous throw, answered with status 500 by Express's default error handler
}

=== FILE: maintenance.dfy ===
/** middleware/maintenanceMiddleware.js: while the `is_maintenance` flag of the
    first `admin_config` row is true, requests without a logged-in session are
    sent to `/maintenance`. Static assets and the login, auth and maintenance
    paths are let through before the flag is read, and a failed read lets
    everything through. */
module Maintenance {
  import opened Values
  import opened Strings
  import opened Http
  import opened SessionGuard

  /** The extensions of the case-insensitive `STATIC_EXTENSIONS` pattern
      `\.(css|js|...)$`. */
  const STATIC_EXTENSIONS: seq<string> :=
    ["css", "js", "png", "jpg", "jpeg", "gif", "svg", "ico", "woff", "woff2",
     "ttf", "eot", "map", "webp", "avif", "mp4", "webm"]

  /** Path prefixes that always pass, compared against the lower-cased path. */
  const EXCLUDED_PATHS: seq<string> := ["/login", "/auth", "/maintenance", "/api/auth"]

  const MAINTENANCE_PAGE: string := "/maintenance"

  /** The path ends in `.` and an allow-listed extension, in any letter case. */
  predicate IsStaticAsset(path: string)
  {
    exists i :: 0 <= i < |STATIC_EXTENSIONS| && EndsWith(Lower(path), "." + STATIC_EXTENSIONS[i])
  }

  /** The lower-cased path starts with an excluded prefix (a plain prefix test). */
  predicate IsExcluded(path: string)
  {
    exists i :: 0 <= i < |EXCLUDED_PATHS| && StartsWith(Lower(path), EXCLUDED_PATHS[i])
  }

  /** `config.length > 0 && config[0].is_maintenance === true` on a query that
      did not throw; `is_maintenance` may be null. */
  predicate Active(config: Fetch<seq<Option<bool>>>)
  {
    config.Fetched? && |config.value| > 0 && config.value[0] == Some(true)
  }

  /** The decision, and whether the flag was read to reach it. */
  datatype Gate = Gate(response: Response, flagRead: bool)

  /** `maintenanceCheck`: the request is redirected to `/maintenance` exactly
      when it is neither a static asset nor under an excluded prefix, the flag
      was read and is on, and its session has no user; in every other case it
      passes. The flag is read only for paths neither allow-list covers. */
  function Check(path: string, config: Fetch<seq<Option<bool>>>, session: Option<Session>): (g: Gate)
    ensures g.flagRead <==> !IsStaticAsset(path) && !IsExcluded(path)
    ensures g.response == Next || g.response == Redirect(MAINTENANCE_PAGE, None)
    ensures g.response.Redirect? <==>
              !IsStaticAsset(path) && !IsExcluded(path) && Active(config) && !HasUser(session)
  {
    if IsStaticAsset(path) then Gate(Next, false)
    else if IsExcluded(path) then Gate(Next, false)
    else
      match config
      case Threw(_) => Gate(Next, true)  // logged, then falls through to next()
      case Fetched(rows) =>
        var isMaintenance := |rows| > 0 && rows[0] == Some(true);
        if isMaintenance then
          if HasUser(session) then Gate(Next, true) else Gate(Redirect(MAINTENANCE_PAGE, None), true)
        else Gate(Next, true)
  }

  /** A failed flag read never blocks a request. */
  lemma FailsOpen(path: string, message: string, session: Option<Session>)
    ensures Check(path, Threw(message), session).response == Next
  {
  }

  /** Every path under an excluded prefix passes without the flag being read,
      whatever the flag and the session. */
  lemma ExcludedPasses(path: string, config: Fetch<seq<Option<bool>>>, session: Option<Session>)
    requires IsExcluded(path)
    ensures Check(path, config, session) == Gate(Next, false)
  {
  }

  /** Any path whose lower-cased form starts with `/login` passes, in any
      letter case and including longer paths such as `/loginx`. */
  lemma LoginPrefixPasses(path: string, config: Fetch<seq<Option<bool>>>, session: Option<Session>)
    requires StartsWith(Lower(path), "/login")
    ensures Check(path, config, session) == Gate(Next, false)
  {
    assert EXCLUDED_PATHS[0] == "/login";
    ExcludedPasses(path, config, session);
  }

  lemma LowerIdempotent(s: string)
    ensures Lower(Lower(s)) == Lower(s)
  {
  }

  /** The gate compares paths without regard to letter case: a path and its
      lower-cased form get the same decision. */
  lemma CaseInsensitive(path: string, config: Fetch<seq<Option<bool>>>, session: Option<Session>)
    ensures Check(path, config, session) == Check(Lower(path), config, session)
  {
    LowerIdempotent(path);
  }

  /** Whatever the flag and the session, the login page can be reached, so
      turning maintenance on cannot lock the admin out. */
  lemma LoginAlwaysReachable(config: Fetch<seq<Option<bool>>>, session: Option<Session>)
    ensures Check("/login", config, session) == Gate(Next, false)
    ensures Check("/LOGIN", config, session) == Gate(Next, false)
    ensures Check("/loginx", config, session) == Gate(Next, false)
  {
    assert Lower("/login")[..6] == "/login";
    assert Lower("/LOGIN")[..6] == "/login";
    assert Lower("/loginx")[..6] == "/login";
    LoginPrefixPasses("/login", config, session);
    LoginPrefixPasses("/LOGIN", config, session);
    LoginPrefixPasses("/loginx", config, session);
  }

  /** A path containing no `.` is never a static asset. */
  lemma NoDotNoAsset(path: string)
    requires '.' !in path
    ensures !IsStaticAsset(path)
  {
    var low := Lower(path);
    assert forall j :: 0 <= j < |low| ==> low[j] != '.';
    forall i | 0 <= i < |STATIC_EXTENSIONS|
      ensures !EndsWith(low, "." + STATIC_EXTENSIONS[i])
    {
      var suffix := "." + STATIC_EXTENSIONS[i];
      assert suffix[0] == '.';
      if |suffix| <= |low| {
        assert low[|low| - |suffix|..][0] == low[|low| - |suffix|];
      }
    }
  }

  /** With maintenance on and no session: the home page is redirected, the
      login page and a stylesheet pass; with a logged-in session the home page
      passes too. */
  lemma MaintenanceScenario(user: string)
    requires user != ""
    ensures Check("/", Fetched([Some(true)]), None).response == Redirect(MAINTENANCE_PAGE, None)
    ensures Check("/login", Fetched([Some(true)]), None).response == Next
    ensures Check("/style.css", Fetched([Some(true)]), None).response == Next
    ensures Check("/", Fetched([Some(true)]), Some(Session(Some(user)))).response == Next
  {
    NoDotNoAsset("/");
    assert !IsExcluded("/") by {
      forall i | 0 <= i < |EXCLUDED_PATHS| ensures !StartsWith(Lower("/"), EXCLUDED_PATHS[i]) {
        assert |EXCLUDED_PATHS[i]| > 1;
      }
    }
    LoginAlwaysReachable(Fetched([Some(true)]), None);
    assert EndsWith(Lower("/style.css"), "." + STATIC_EXTENSIONS[0]);
  }
}

=== FILE: session_guard.dfy ===
/** The `requireAuth` of middleware/authMiddleware.js, which trusts
    express-session: a request passes when its session carries a truthy
    `username`, which is then copied onto the request. */
module SessionGuard {
  import opened Values
  import opened Http

  /** express-session's `req.session`, reduced to the field the guards read. */
  datatype Session = Session(username: Option<string>)

  /** The parts of an Express request the guards read or write. */
  datatype Request = Request(path: string, session: Option<Session>, username: Option<string>)

  /** `req.session && req.session.username` */
  predicate HasUser(session: Option<Session>)
  {
    session.Some? && Truthy(session.value.username)
  }

  datatype Guarded = Guarded(response: Response, request: Request)

  /** The request proceeds exactly when its session has a user, and then
      `req.username` is that user; otherwise it is sent to `/login` and the
      next handler never runs. The session itself is never changed. */
  function RequireAuth(req: Request): (g: Guarded)
    ensures g.response.Next? <==> HasUser(req.session)
    ensures g.response.Next? ==> g.request.username == req.session.value.username
    ensures !g.response.Next? ==> g.response == Redirect("/login", None) && g.request == req
    ensures g.request.session == req.session && g.request.path == req.path
  {
    if HasUser(req.session) then Guarded(Next, req.(username := req.session.value.username))
    else Guarded(Redirect("/login", None), req)
  }

  /** Running the guard again on a request it let through changes nothing more. */
  lemma RequireAuthIdempotent(req: Request)
    requires RequireAuth(req).response.Next?
    ensures RequireAuth(RequireAuth(req).request) == RequireAuth(req)
  {
  }
}

=== FILE: sessions.dfy ===
/** The in-memory session registry of index.js and the handlers that read it
    directly: the `requireAuth` guard with its 30-minute rolling idle timeout,
    the `/index3.html` intercept and `/logout`. The registry maps a session
    token to the time of its last use, in milliseconds; the clock reading
    `now` and `decodeURI` are parameters. */
module Sessions {
  import opened Values
  import opened Http
  import Cookies

  type Token = string

  /** token -> time of last activity (ms since the epoch) */
  type Registry = map<Token, int>

  /** 30 minutes, in milliseconds. */
  const SESSION_TIMEOUT: int := 30 * 60 * 1000

  /** A response together with the registry the request leaves behind. */
  datatype Step = Step(response: Response, sessions: Registry)

  /** `cookies.session_id`, when it is present and non-empty. */
  function SessionId(cookieHeader: Option<string>, decode: string -> string): Option<Token>
  {
    var jar := Cookies.Parse(cookieHeader, decode);
    if SESSION_COOKIE in jar && jar[SESSION_COOKIE] != "" then Some(jar[SESSION_COOKIE]) else None
  }

  /** The cookie a browser sends back after login carries the token it was given. */
  lemma SessionIdOfCookie(token: Token, decode: string -> string)
    requires token != "" && ';' !in token && decode(token) == token
    ensures SessionId(Some("session_id=" + token), decode) == Some(token)
  {
    Cookies.SessionCookieRoundTrip(token, decode);
  }

  /** The idle time since `lastActivity` exceeds the timeout; an idle time
      exactly equal to it is not yet expired. */
  predicate Expired(lastActivity: int, now: int)
  {
    now - lastActivity > SESSION_TIMEOUT
  }

  /** Token `t` names a session that is usable at time `now`. */
  predicate Live(sessions: Registry, t: Token, now: int)
  {
    t in sessions && !Expired(sessions[t], now)
  }

  /** `a` and `b` agree on every token other than `t`. */
  ghost predicate AgreeExcept(a: Registry, b: Registry, t: Token)
  {
    forall u :: u != t ==> (u in a <==> u in b) && (u in a ==> a[u] == b[u])
  }

  /** `requireAuth`: a live session proceeds and its last-activity time becomes
      `now`; an expired one is removed, its cookie cleared and the request sent
      to `/login?error=timeout`; a missing or unknown token is sent to `/login`
      with the registry untouched. No other session is changed and none is
      created. */
  function RequireAuth(sessions: Registry, cookieHeader: Option<string>, decode: string -> string, now: int): (s: Step)
    ensures var id := SessionId(cookieHeader, decode);
            s.response.Next? <==> id.Some? && Live(sessions, id.value, now)
    ensures var id := SessionId(cookieHeader, decode);
            s.response.Next? ==>
              id.value in s.sessions && s.sessions[id.value] == now && AgreeExcept(sessions, s.sessions, id.value)
    ensures var id := SessionId(cookieHeader, decode);
            id.Some? && id.value in sessions && Expired(sessions[id.value], now) ==>
              s.response == Redirect("/login?error=timeout", Some(CLEARED_COOKIE)) &&
              id.value !in s.sessions && AgreeExcept(sessions, s.sessions, id.value)
    ensures var id := SessionId(cookieHeader, decode);
            (id.None? || id.value !in sessions) ==> s == Step(Redirect("/login", None), sessions)
    ensures s.sessions.Keys <= sessions.Keys
  {
    match SessionId(cookieHeader, decode)
    case Some(id) =>
      if id in sessions then
        if Expired(sessions[id], now) then
          Step(Redirect("/login?error=timeout", Some(CLEARED_COOKIE)), sessions - {id})
        else
          Step(Next, sessions[id := now])
      else
        Step(Redirect("/login", None), sessions)
    case None => Step(Redirect("/login", None), sessions)
  }

  /** The intercept in front of the static files: only `/index3.html` is guarded. */
  function Intercept(path: string, sessions: Registry, cookieHeader: Option<string>, decode: string -> string, now: int): (s: Step)
    ensures path == "/index3.html" ==> s == RequireAuth(sessions, cookieHeader, decode, now)
    ensures path != "/index3.html" ==> s == Step(Next, sessions)
  {
    if path == "/index3.html" then RequireAuth(sessions, cookieHeader, decode, now) else Step(Next, sessions)
  }

  /** `/logout`: the cookie's session is removed if there is one, the cookie is
      cleared and the browser sent to `/login`, whatever the request carried. */
  function Logout(sessions: Registry, cookieHeader: Option<string>, decode: string -> string): (s: Step)
    ensures s.response == Redirect("/login", Some(CLEARED_COOKIE))
    ensures var id := SessionId(cookieHeader, decode);
            id.Some? ==> id.value !in s.sessions && AgreeExcept(sessions, s.sessions, id.value)
    ensures SessionId(cookieHeader, decode).None? ==> s.sessions == sessions
  {
    var sessions' := match SessionId(cookieHeader, decode)
      case Some(id) => sessions - {id}
      case None => sessions;
    Step(Redirect("/login", Some(CLEARED_COOKIE)), sessions')
  }

  /** Logging out twice leaves the registry as logging out once. */
  lemma LogoutIdempotent(sessions: Registry, cookieHeader: Option<string>, decode: string -> string)
    ensures var once := Logout(sessions, cookieHeader, decode);
            Logout(once.sessions, cookieHeader, decode) == once
  {
  }

  /** After `/logout`, the same cookie never gets past the guard. */
  lemma LoggedOutIsRejected(sessions: Registry, cookieHeader: Option<string>, decode: string -> string, now: int)
    ensures var out := Logout(sessions, cookieHeader, decode);
            RequireAuth(out.sessions, cookieHeader, decode, now) == Step(Redirect("/login", None), out.sessions)
  {
  }

  /** Rolling expiry: once a request has passed the guard at `t1`, the same
      cookie passes again at any `t2` no later than `t1 + SESSION_TIMEOUT`, and
      is timed out at any `t2` after it. */
  lemma RollingExpiry(sessions: Registry, cookieHeader: Option<string>, decode: string -> string, t1: int, t2: int)
    requires RequireAuth(sessions, cookieHeader, decode, t1).response.Next?
    ensures var after := RequireAuth(sessions, cookieHeader, decode, t1).sessions;
            t2 - t1 <= SESSION_TIMEOUT ==> RequireAuth(after, cookieHeader, decode, t2).response.Next?
    ensures var after := RequireAuth(sessions, cookieHeader, decode, t1).sessions;
            t2 - t1 > SESSION_TIMEOUT ==>
              RequireAuth(after, cookieHeader, decode, t2).response == Redirect("/login?error=timeout", Some(CLEARED_COOKIE))
  {
  }

  /** A timeout is final: once the guard has answered a cookie with the
      timeout redirect, the same cookie is sent to `/login` at any later time,
      and the registry is left as the timeout left it. */
  lemma TimedOutStaysOut(sessions: Registry, cookieHeader: Option<string>, decode: string -> string, now: int, later: int)
    requires RequireAuth(sessions, cookieHeader, decode, now).response == Redirect("/login?error=timeout", Some(CLEARED_COOKIE))
    requires now <= later
    ensures var after := RequireAuth(sessions, cookieHeader, decode, now).sessions;
            RequireAuth(after, cookieHeader, decode, later) == Step(Redirect("/login", None), after)
  {
  }
}

=== FILE: strings.dfy ===
/** The JavaScript string operations the system relies on, over `seq<char>`:
    `startsWith`, `endsWith`, `includes`, `indexOf`, `replace` with a string
    pattern, `split`/`join` on one character, `trim`, and `toLowerCase`
    restricted to ASCII letters. */
module Strings {
  import opened Values

  predicate StartsWith(s: string, prefix: string)
  {
    |prefix| <= |s| && s[..|prefix|] == prefix
  }

  predicate EndsWith(s: string, suffix: string)
  {
    |suffix| <= |s| && s[|s| - |suffix|..] == suffix
  }

  /** `pat` occurs in `s` starting at position `i`. */
  predicate OccursAt(s: string, pat: string, i: int)
  {
    0 <= i && i + |pat| <= |s| && s[i..i + |pat|] == pat
  }

  /** The first position at or after `from` where `pat` occurs in `s`. */
  function IndexOfFrom(s: string, pat: string, from: nat): (r: Option<nat>)
    ensures r.Some? ==> from <= r.value && OccursAt(s, pat, r.value)
    ensures r.Some? ==> forall j :: from <= j < r.value ==> !OccursAt(s, pat, j)
    ensures r.None? ==> forall j :: from <= j ==> !OccursAt(s, pat, j)
    decreases |s| - from
  {
    if from + |pat| > |s| then None
    else if OccursAt(s, pat, from) then Some(from)
    else IndexOfFrom(s, pat, from + 1)
  }

  /** `s.indexOf(pat)`, with `None` for -1: the first occurrence of `pat`. */
  function IndexOf(s: string, pat: string): (r: Option<nat>)
    ensures r.Some? ==> OccursAt(s, pat, r.value)
    ensures r.Some? ==> forall j :: 0 <= j < r.value ==> !OccursAt(s, pat, j)
    ensures r.None? ==> forall j :: !OccursAt(s, pat, j)
  {
    IndexOfFrom(s, pat, 0)
  }

  /** An occurrence with none before it is the one `indexOf` finds. */
  lemma IndexOfIs(s: string, pat: string, i: nat)
    requires OccursAt(s, pat, i)
    requires forall j :: 0 <= j < i ==> !OccursAt(s, pat, j)
    ensures IndexOf(s, pat) == Some(i)
  {
  }

  /** `s.includes(pat)`. */
  predicate Contains(s: string, pat: string)
  {
    IndexOf(s, pat).Some?
  }

  /** `s.replace(pat, rep)` with a string pattern: only the first occurrence of
      `pat` is replaced. The replacement is taken literally; the system never
      passes one containing `$`, so JavaScript's `$` patterns do not arise. */
  function ReplaceFirst(s: string, pat: string, rep: string): (r: string)
    ensures IndexOf(s, pat).None? ==> r == s
    ensures IndexOf(s, pat).Some? ==>
              var i := IndexOf(s, pat).value;
              r == s[..i] + rep + s[i + |pat|..]
  {
    match IndexOf(s, pat)
    case None => s
    case Some(i) => s[..i] + rep + s[i + |pat|..]
  }

  /** The position of the first `c` in `s`. */
  function FirstIndex(s: string, c: char): (i: nat)
    requires c in s
    ensures i < |s| && s[i] == c && c !in s[..i]
  {
    if s[0] == c then 0 else 1 + FirstIndex(s[1..], c)
  }

  /** `parts.join(sep)`. */
  function Join(parts: seq<string>, sep: char): string
  {
    if |parts| == 0 then ""
    else if |parts| == 1 then parts[0]
    else parts[0] + [sep] + Join(parts[1..], sep)
  }

  /** `s.split(sep)` for a one-character separator: never empty, no piece
      contains the separator, and joining the pieces gives `s` back. */
  function Split(s: string, sep: char): (parts: seq<string>)
    ensures |parts| > 0
    ensures forall k :: 0 <= k < |parts| ==> sep !in parts[k]
    ensures Join(parts, sep) == s
    decreases |s|
  {
    if sep !in s then [s]
    else
      var i := FirstIndex(s, sep);
      [s[..i]] + Split(s[i + 1..], sep)
  }

  /** The first piece of a split is the text before the first separator, and
      the remaining pieces join back to the text after it. */
  lemma SplitAtFirst(s: string, sep: char)
    ensures sep !in s ==> Split(s, sep) == [s]
    ensures sep in s ==>
              var i := FirstIndex(s, sep);
              |Split(s, sep)| > 1 &&
              Split(s, sep)[0] == s[..i] &&
              Join(Split(s, sep)[1..], sep) == s[i + 1..]
  {
    if sep in s {
      var i := FirstIndex(s, sep);
      assert Split(s, sep) == [s[..i]] + Split(s[i + 1..], sep);
      assert Split(s, sep)[1..] == Split(s[i + 1..], sep);
    }
  }

  lemma FirstIndexAfterPiece(a: string, sep: char, b: string)
    requires sep !in a
    ensures sep in a + [sep] + b
    ensures FirstIndex(a + [sep] + b, sep) == |a|
  {
    var s := a + [sep] + b;
    assert s[|a|] == sep;
    assert s[..|a|] == a;
  }

  /** Splitting undoes joining, when no piece contains the separator. */
  lemma {:induction false} SplitJoin(parts: seq<string>, sep: char)
    requires |parts| > 0
    requires forall k :: 0 <= k < |parts| ==> sep !in parts[k]
    ensures Split(Join(parts, sep), sep) == parts
    decreases |parts|
  {
    if |parts| == 1 {
      assert Join(parts, sep) == parts[0];
    } else {
      var rest := Join(parts[1..], sep);
      assert Join(parts, sep) == parts[0] + [sep] + rest;
      FirstIndexAfterPiece(parts[0], sep, rest);
      var s := parts[0] + [sep] + rest;
      var i := FirstIndex(s, sep);
      assert s[..i] == parts[0];
      assert s[i + 1..] == rest;
      SplitJoin(parts[1..], sep);
      assert Split(s, sep) == [parts[0]] + parts[1..];
    }
  }

  /** The characters JavaScript's `trim` removes: WhiteSpace and LineTerminator
      of the ECMAScript grammar. */
  predicate IsSpace(c: char)
  {
    ('\t' <= c <= '\r') || c == ' ' || c == '\U{00A0}' || c == '\U{1680}' ||
    ('\U{2000}' <= c <= '\U{200A}') || c == '\U{2028}' || c == '\U{2029}' ||
    c == '\U{202F}' || c == '\U{205F}' || c == '\U{3000}' || c == '\U{FEFF}'
  }

  /** Every character of `x` is white space. */
  predicate AllSpace(x: string)
  {
    forall k :: 0 <= k < |x| ==> IsSpace(x[k])
  }

  function TrimStart(s: string): (r: string)
    ensures |r| <= |s| && r == s[|s| - |r|..]
    ensures AllSpace(s[..|s| - |r|])
    ensures r == "" || !IsSpace(r[0])
  {
    if |s| > 0 && IsSpace(s[0]) then TrimStart(s[1..]) else s
  }

  function TrimEnd(s: string): (r: string)
    ensures |r| <= |s| && r == s[..|r|]
    ensures AllSpace(s[|r|..])
    ensures r == "" || !IsSpace(r[|r| - 1])
  {
    if |s| > 0 && IsSpace(s[|s| - 1]) then TrimEnd(s[..|s| - 1]) else s
  }

  /** `r` is the slice of `s` at `i`, with only white space before and after it. */
  predicate SpaceAround(s: string, r: string, i: int)
  {
    0 <= i && i + |r| <= |s| && r == s[i..i + |r|] &&
    AllSpace(s[..i]) && AllSpace(s[i + |r|..])
  }

  lemma TrimSlice(s: string)
    ensures SpaceAround(s, TrimEnd(TrimStart(s)), |s| - |TrimStart(s)|)
  {
    var t := TrimStart(s);
    var r := TrimEnd(t);
    var i := |s| - |t|;
    assert r == s[i..i + |r|];
    assert s[i + |r|..] == t[|r|..];
  }

  /** `s.trim()`: the result is a slice of `s` with only white space before
      and after it, it has no white space at either end, and a string with
      none at either end is returned as it is. */
  function Trim(s: string): (r: string)
    ensures |r| <= |s|
    ensures exists i :: SpaceAround(s, r, i)
    ensures r == "" || (!IsSpace(r[0]) && !IsSpace(r[|r| - 1]))
    ensures (s == "" || (!IsSpace(s[0]) && !IsSpace(s[|s| - 1]))) ==> r == s
  {
    TrimSlice(s);
    TrimEnd(TrimStart(s))
  }

  function LowerChar(c: char): char
  {
    if 'A' <= c <= 'Z' then (c as int + 32) as char else c
  }

  /** `s.toLowerCase()` on ASCII letters; every other character is kept. */
  function Lower(s: string): (r: string)
    ensures |r| == |s|
    ensures forall i :: 0 <= i < |s| ==> r[i] == LowerChar(s[i])
  {
    seq(|s|, i requires 0 <= i < |s| => LowerChar(s[i]))
  }
}

=== FILE: values.dfy ===
/** Plain values shared by every module: optional values, settled promises and
    JavaScript truthiness of the string-or-missing values the system passes around. */
module Values {

  /** A value that may be missing (`null` or `undefined` in the system). */
  datatype Option<+T> = None | Some(value: T)

  /** The settled state of an awaited promise: the value it resolved to, or the
      message of the error it was rejected with. Every database query, hash
      comparison and remote call the system awaits is an input of this type. */
  datatype Fetch<+T> = Fetched(value: T) | Threw(message: string)

  /** JavaScript truthiness of a value that is a string, `null` or `undefined`:
      only a present, non-empty string is truthy. */
  predicate Truthy(s: Option<string>)
  {
    s.Some? && s.value != ""
  }

  /** The expression `s || ''`. */
  function OrEmpty(s: Option<string>): (r: string)
    ensures Truthy(s) ==> r == s.value
    ensures !Truthy(s) ==> r == ""
  {
    match s
    case Some(v) => v
    case None => ""
  }
}
